=== FILE: README.md ===
# Cuervo Store domain layer in Dafny

This project models the storefront domain layer of `js/app.js`. The browser
page keeps every collection in `localStorage` under `cs_`-prefixed keys and
runs each operation as a synchronous read-modify-write of whole collections:

- accounts: register, confirm, log in, log out, edit profile;
- the product catalogue: add, update, delete, search, review;
- the shopping cart;
- orders;
- the demo data written on first load.

The store is one record of sequences: users, products, orders, cart lines and
messages. It also has a single session slot and the `seeded` flag. Operations
are pure functions over it:

- An operation that answers `{ ok, ... }` maps a `Store` to a `Step`. A `Step`
  holds the reply and the store the operation leaves behind.
- `Auth.logout` and the demo seeding answer nothing, and `Products.delete`
  always answers `{ ok: true }`, so these map a `Store` to a `Store`.
- Queries map a `Store` to the value they return.
- The cart operations work on the in-page `Cart.items` lines, a
  `seq<CartItem>`. `Cart.save` writes the lines into the store's cart and
  changes nothing else.

Inputs the page draws from the environment are parameters:

- `Date.now()` is a `clock: nat`. Record ids are a prefix plus its decimal digits.
- `new Date().toISOString()` is a `stamp: string`.
- The random confirmation code is a `token: string`.

`btoa` is a real Base64 encoder over Latin-1 character codes. It is `None`
where the browser throws. Its decoder round trip proves it injective, so
comparing encoded passwords compares passwords.

Modules, in dependency order:

| module | file | what it holds |
|---|---|---|
| `Wrappers` | `wrappers.dfy` | `Option` |
| `Text` | `text.dfy` | ASCII lower-casing, substring search (`includes`), `slice(-n)`, decimal digits, JavaScript `\|\|` on strings |
| `Seqs` | `seqs.dfy` | `find`/`findIndex` and `filter`, with their laws |
| `Base64` | `base64.dfy` | `btoa`, its decoder and the round trip |
| `Records` | `records.dfy` | one datatype per record kind, the `Store`, errors and replies |
| `Db` | `db.dfy` | the prefixed key-value layer and the typed load/persist of the store |
| `Auth` | `auth.dfy` | accounts and the session |
| `Products` | `products.dfy` | the catalogue |
| `Cart` | `cart.dfy` | cart lines, totals and counts |
| `Orders` | `orders.dfy` | checkout and order status |
| `Seed` | `seed.dfy` | the demo accounts and catalogue |

## Model

| member | source | states |
|---|---|---|
| Text.Lower | js/app.js:163 | lower-casing keeps the length and lower-cases each character on its own |
| Text.Contains | js/app.js:239 | `includes`: true exactly when the needle occurs at some position of the text |
| Text.LastN | js/app.js:331 | `slice(-n)`: the last min(n, length) characters, which are a suffix of the input |
| Text.Decimal | js/app.js:179 | the decimal rendering of an id clock is a non-empty string of digits |
| Text.DecimalRoundTrip | js/app.js:179 | reading the digits of a clock back gives the clock |
| Text.DecimalInjective | js/app.js:179 | different clocks give different ids |
| Seqs.FindIndex | js/app.js:203 | `findIndex`: the index found satisfies the test and no earlier one does; none is found exactly when no element passes |
| Seqs.Filter | js/app.js:235 | `filter`: every kept element comes from the input and passes; every passing element is kept; never longer than the input |
| Seqs.FilterCounts | js/app.js:235 | `filter` keeps each passing element exactly as often as the input holds it, and no failing element |
| Seqs.FilterPicks | js/app.js:235 | `filter` keeps the passing elements in their original order: the result lists the input at strictly rising positions, which are exactly the passing positions |
| Seqs.PicksUnique | js/app.js:235 | any sequence that lists the input at strictly rising positions, exactly the passing ones, is `filter`'s result |
| Seqs.FilterFilter | js/app.js:237-242 | two filters in a row equal one filter by the conjunction |
| Seqs.FilterAppend | js/app.js:261 | filtering distributes over concatenation |
| Base64.EncodeBytes | js/app.js:183 | the encoding of n bytes has 4·⌈n/3⌉ characters |
| Base64.DecodeEncode | js/app.js:183 | decoding the encoding of any byte string gives that byte string back |
| Base64.Btoa | js/app.js:163 | `btoa` succeeds exactly on Latin-1 strings, with 4·⌈n/3⌉ output characters |
| Base64.BtoaInjective | js/app.js:163 | two passwords with the same Base64 text are the same password |
| Base64.TestVectors | js/app.js:183 | the encoder agrees with the test vectors of section 10 of RFC 4648 |
| Records.ErrorText | js/app.js:164-204 | each failure a reply describes carries a message; a missing record and an escaping encoding exception carry none |
| Db.Get | js/app.js:126-128 | a missing key or unparsable text reads as the fallback; parsable text reads as its value; the raw key is `cs_` + key |
| Db.Set | js/app.js:129-131 | a write that fits adds the prefixed key and answers true; one that does not fit changes nothing and answers false |
| Db.Del | js/app.js:132 | the prefixed key is gone and every other key is still present |
| Db.GetAfterSet | js/app.js:126-131 | a key reads back as the value last written to it |
| Db.GetAfterOtherSet | js/app.js:126-131 | a write to one key, successful or not, leaves every other key's reading alone |
| Db.GetAfterDel | js/app.js:126-132 | after a delete the key reads as its fallback |
| Db.Load | js/app.js:134-151 | an empty browser profile loads as the blank store: empty collections, no session, not seeded |
| Db.LoadPersist | js/app.js:133-152 | saving every collection and loading them back gives the same store, whatever the profile held before |
| Auth.Redact | js/app.js:167 | the session copy has no password and differs from the account in nothing else |
| Auth.Login | js/app.js:161-171 | checks run in order: no account with a case-insensitive e-mail and an equal encoded password gives invalid credentials; then unconfirmed wins over banned; then banned; only a full pass opens the session, with the account minus its password; accounts are never touched and every failure leaves the store as it was |
| Auth.IsAdmin | js/app.js:159 | true only when someone is logged in (`isLoggedIn`, js/app.js:158) and the session's role is admin |
| Auth.IsSeller | js/app.js:160 | true exactly when someone is logged in and the session's role is not buyer; every admin counts as a seller |
| Auth.Logout | js/app.js:172 | the session slot is emptied, so nobody is logged in, admin or seller; nothing else in the store changes |
| Auth.LoginLogout | js/app.js:157-172 | a successful login followed by a logout leaves the store as it was with an empty session slot; the session holds the returned account, with no password; the page then counts as logged in, as admin exactly for an admin account, and as seller exactly for a seller or admin account |
| Auth.Register | js/app.js:173-200 | a case-insensitive e-mail clash fails and changes nothing; a password outside Latin-1 throws; otherwise one unconfirmed, unbanned buyer that has not asked to sell is appended, holding the token, with the given name and e-mail, the encoded password, the phone and career or empty, the avatar or the default one, and the creation stamp; one `email` message to that address is appended with the confirmation subject, the body ending in the token, the token, the account id, unread and stamped with a second reading of the clock; the token is returned |
| Auth.RegisterTwice | js/app.js:175-176 | after a registration, a second one with the same e-mail in any letter case fails and changes nothing |
| Auth.ConfirmAccount | js/app.js:201-209 | succeeds exactly when some account holds the token; the first holder becomes confirmed with no token and no other account changes; a failure changes nothing |
| Auth.ConfirmSingleUse | js/app.js:201-209 | confirming the same token again succeeds exactly when a second account held that token |
| Auth.UpdateProfile | js/app.js:210-220 | the patch is merged into the first account with the session's id and the session is refreshed from it, without password; an unknown id changes nothing |
| Auth.UpdateProfileIdempotent | js/app.js:210-220 | applying the same patch twice is applying it once, when the patch does not change the id |
| Auth.RegisterConfirmLogin | js/app.js:161-209 | a fresh registration cannot log in before confirming, its token then confirms it, and the login then succeeds as the new account |
| Products.GetById | js/app.js:234 | the first product with the id, and none exactly when no product has it |
| Products.GetBySeller | js/app.js:235 | exactly the seller's products, in stored order, each as often as stored |
| Products.GetApproved | js/app.js:236 | exactly the approved products, in stored order, each as often as stored |
| Products.Search | js/app.js:237-242 | exactly the approved products whose lower-cased title or description contains the lower-cased query (an empty query matches all) and whose category is the one asked (an empty category matches all) |
| Products.SearchIsOneFilter | js/app.js:237-242 | the staged filters of search are one order-preserving filter of the catalogue |
| Products.Add | js/app.js:243-264 | one product is appended, pending, unrated, unreviewed and unsold; a stock that is zero or not a number becomes 1, any other is kept; images default to none; it is stamped with the current time |
| Products.AddIsHidden | js/app.js:243-264 | a newly added product appears in no search until it is approved |
| Products.Update | js/app.js:265-272 | the first product with the id takes the patch's fields and nothing else changes; an unknown id fails and changes nothing |
| Products.GetAfterUpdate | js/app.js:265-272 | reading back a product after an update that keeps its id gives the merged product |
| Products.Delete | js/app.js:273-278 | every product with the id goes, every other product stays in its order and multiplicity, and only the catalogue changes |
| Products.DeleteIsFinal | js/app.js:273-278 | after a delete the id is not found, and a second delete changes nothing |
| Products.Mean | js/app.js:285-286 | the rating times the number of reviews is the sum of the stars |
| Products.AddReview | js/app.js:279-289 | an unknown id fails and changes nothing; otherwise one review is appended to the first matching product and its rating becomes the mean of all its stars, with nothing else changed |
| Products.StarSumBounds | js/app.js:285 | with every review between one and five stars, the star sum lies between the count and five times the count |
| Products.MeanBounds | js/app.js:285-286 | with every review between one and five stars, the rating lies between 1 and 5 |
| Products.MeanExamples | js/app.js:285-286 | five and four stars rate 4.5; five, four and four rate 13/3 |
| Cart.Add | js/app.js:296-301 | an existing line for the product grows by the quantity, in place, and the length is unchanged; otherwise exactly one line with the product's id, title, price, first image (or empty) and the quantity is appended |
| Cart.AddOne | js/app.js:296-301 | `add` with the default quantity of one: the first line of the product grows by one, or else one snapshot line of quantity one is appended; the count rises by one and the total by the line's unit price |
| Cart.AddKeepsLinesUnique | js/app.js:296-301 | adding never creates a second line for a product |
| Cart.AddSums | js/app.js:296-309 | adding raises the count by the quantity and the total by the quantity times the line's price |
| Cart.AddEachAccumulates | js/app.js:296-301 | repeated adds of one product make a single line whose quantity is the sum of the quantities added |
| Cart.Remove | js/app.js:302 | no line of the product is left; every other line stays, in order and as often as before |
| Cart.RemoveCount | js/app.js:302-309 | removing a product's lines lowers the count by that product's quantity |
| Cart.UpdateQty | js/app.js:303-307 | an unknown product changes nothing; a quantity of zero or less is `remove`; a positive one overwrites the first line's quantity only |
| Cart.UpdateQtyCount | js/app.js:303-309 | with one line per product, the count afterwards is the old count with that product's quantity replaced by the new one, or dropped |
| Cart.UpdateQtyKeepsLinesUnique | js/app.js:303-307 | updating a quantity never creates a second line for a product |
| Cart.TotalOf | js/app.js:308 | the `reduce` loop computes the sum of price times quantity over the lines |
| Cart.CountOf | js/app.js:309 | the `reduce` loop computes the sum of quantities over the lines |
| Cart.TotalReplace | js/app.js:308 | replacing one line moves the total by the difference of the two line totals |
| Cart.Clear | js/app.js:310 | an empty cart: no line for any product, count 0 and total 0 |
| Cart.Save | js/app.js:311 | the lines become the stored cart and nothing else in the store changes |
| Orders.GetById | js/app.js:321 | the first order with the id, and none exactly when no order has it |
| Orders.GetByUser | js/app.js:322 | exactly the buyer's orders, in the order placed, each as often as stored |
| Orders.Mask | js/app.js:331 | the stored card number is `****` followed by the last min(4, length) characters of the number sent; every other payment field is kept |
| Orders.SellAllEffect | js/app.js:338-341 | after all line items, each product that is the first with its id has sold up and stock down by the total quantity ordered under that id; every other product, and every field but those two, is unchanged |
| Orders.Create | js/app.js:323-345 | always succeeds; exactly one paid order is appended with the caller's items, address and total stored unchanged and a masked card, stamped with the current time; sold and stock move by the ordered quantities with no lower bound, and unknown ids are skipped |
| Orders.TwoLineOrder | js/app.js:338-341 | two lines for two products take each quantity off its own stock, even below zero |
| Orders.UpdateStatus | js/app.js:346-353 | an unknown id fails and changes nothing; otherwise only the first matching order's status changes |
| Orders.GetAfterUpdateStatus | js/app.js:346-353 | reading an order back after a status change gives the order with the new status |
| Seed.SeedDemoData | js/app.js:430-450 | on an unseeded store the accounts and catalogue become the demo ones and the flag is raised; orders, cart, session and messages stay; a seeded store is left alone |
| Seed.SeedOnce | js/app.js:431 | seeding twice is seeding once |
| Seed.DemoAdminLogsIn | js/app.js:432-437 | with the demo accounts, the administrator logs in with the demo password and the session holds that account without its password |
| Seed.AdminLogsInAfterSeeding | js/app.js:430-450 | right after seeding, the administrator can log in |

## Left out

- Animation, cursor, particles, toasts, glitch text, star rendering, navigation rendering and the page-load hook: presentation only, with no effect on the store.
- `Cart.updateBadge` and `Cart.init`: they only write the DOM or reload `items` from storage. The badge refresh inside `save()` is left out with it.
- Cart.Add, Cart.Remove, Cart.UpdateQty, Cart.Clear: each is modelled on the lines alone. The `save()` each ends with is the separate member Cart.Save.
- `Auth.init`, `requireAuth`, `requireAdmin`, and the redirect in `logout`: navigation side effects. Only the session clearing of `logout` is modelled.
- The in-memory `Auth.current` and `Cart.items` mirrors: they are copies of the stored session and cart. The model keeps one store.
- `Products.getAll` and `Orders.getAll`: they return the stored collection as it is.
- JSON text and the browser's storage quota are outside the model. A stored value is parsable or not, and a write fits or not, as the caller says. The domain operations ignore `DB.set`'s answer, so they are modelled as writes that fit.
- Text.Lower: lower-cases ASCII letters only. JavaScript's full Unicode case mapping is not modelled.
- Products.AddReview: the rating is the exact mean. `toFixed(1)` turns it into a one-decimal string, and that formatting is not modelled.
- Products.Add: `parseFloat` and `parseInt` of the form fields are not modelled. The caller supplies the parsed price, and the parsed stock (`None` for not-a-number).
- Auth.UpdateProfile: with no session the page throws (js/app.js:212); the model requires a session instead.
- Products.Update, Auth.UpdateProfile: `Object.assign` is modelled as a patch with one optional entry per field of the record. Fields outside the record are not modelled.
- Orders.Create: the payment is a card number plus a map of the other fields the checkout sends. The spread keeps every other payment field as sent.
- Orders.Create: the order total is stored as the caller gives it and is not checked against the lines.
- Seed.DemoUsers, Seed.DemoProducts: the nine `new Date().toISOString()` readings of the seeding are taken as one instant, the single `stamp`. The browser may return different milliseconds for them.
- Seed.DemoUsers: the demo accounts omit `phone`, `confirmToken` and, except for one, `sellerRequested`. These read as empty, absent and false.
- Seed: facts about the whole demo catalogue at once (all approved, sellers exist) are not stated. Reasoning over all six literal descriptions together is too costly for the verifier's budget.
- Quantities and prices are unbounded integers and reals. JavaScript floating-point rounding in totals is not modelled.

=== FILE: auth.dfy ===
/** `Auth`: registration with a mock confirmation e-mail, single-use token
    confirmation, login with its ordered checks, logout, and profile updates.
    The session slot holds the logged-in account with its password removed. */
module Auth {
  import opened Wrappers
  import opened Text
  import opened Seqs
  import opened Records
  import Base64

  const ConfirmSubject := "Confirma tu cuenta — Cuervo Store"
  const ConfirmBody := "Tu código de confirmación es: "
  const DefaultAvatar := "assets/avatars/default.svg"

  /** Accounts are matched on e-mail without regard to case. */
  predicate SameEmail(a: string, b: string) {
    Lower(a) == Lower(b)
  }

  predicate EmailTaken(users: seq<User>, email: string) {
    exists i :: 0 <= i < |users| && SameEmail(users[i].email, email)
  }

  /** The session copy of an account: `{ ...user, password: undefined }`. */
  function Redact(u: User): (r: User)
    ensures r.password.None?
    ensures r.(password := u.password) == u
  {
    u.(password := None)
  }

  /** `Auth.isLoggedIn`: some account holds the session. */
  predicate IsLoggedIn(s: Store) {
    s.session.Some?
  }

  /** `Auth.isAdmin`. */
  function IsAdmin(s: Store): (r: bool)
    ensures r ==> IsLoggedIn(s) && s.session.value.role == Admin
  {
    s.session.Some? && s.session.value.role == Admin
  }

  /** `Auth.isSeller`: admins count as sellers, so only buyers are refused. */
  function IsSeller(s: Store): (r: bool)
    ensures IsAdmin(s) ==> r
    ensures r <==> IsLoggedIn(s) && s.session.value.role != Buyer
  {
    s.session.Some? && (s.session.value.role == Seller || s.session.value.role == Admin)
  }

  // ---------------------------------------------------------------- login

  /** Account `i` passes the credential check of `login`: same e-mail up to
      case, and a stored password equal to `btoa(pass)`. */
  predicate CredentialsAt(users: seq<User>, email: string, pass: string, i: int) {
    && 0 <= i < |users|
    && SameEmail(users[i].email, email)
    && Base64.Btoa(pass).Some?
    && users[i].password == Base64.Btoa(pass)
  }

  /** `i` is the account `users.find` returns. */
  predicate FirstCredentials(users: seq<User>, email: string, pass: string, i: int) {
    CredentialsAt(users, email, pass, i) && forall j :: 0 <= j < i ==> !CredentialsAt(users, email, pass, j)
  }

  function FindCredentials(users: seq<User>, email: string, pass: string): (r: Option<nat>)
    ensures r.Some? ==> FirstCredentials(users, email, pass, r.value)
    ensures r.None? <==> forall i :: !CredentialsAt(users, email, pass, i)
  {
    var enc := Base64.Btoa(pass);
    if enc.None? then None
    else FindIndex(users, (u: User) => SameEmail(u.email, email) && u.password == enc)
  }

  /** `Auth.login`. The checks run in a fixed order: credentials, then
      confirmation, then the ban; only a full pass opens a session, and the
      accounts are never touched. `btoa(pass)` is evaluated only for an
      account whose e-mail matches, so its exception escapes only then. */
  function Login(s: Store, email: string, pass: string): (r: Step<User>)
    ensures r.reply.Fail? ==> r.store == s
    ensures r.store.users == s.users
    ensures EmailTaken(s.users, email) && !Base64.Latin1(pass) ==> r.reply == Fail(EncodingFailure)
    ensures (forall i :: !CredentialsAt(s.users, email, pass, i)) && !(EmailTaken(s.users, email) && !Base64.Latin1(pass))
      ==> r.reply == Fail(InvalidCredentials)
    ensures forall i :: FirstCredentials(s.users, email, pass, i) ==>
      if !s.users[i].confirmed then r.reply == Fail(NotConfirmed)
      else if s.users[i].banned then r.reply == Fail(Banned)
      else r == Step(Ok(Redact(s.users[i])), s.(session := Some(Redact(s.users[i]))))
  {
    if Base64.Btoa(pass).None? && EmailTaken(s.users, email) then
      Step(Fail(EncodingFailure), s)
    else
      match FindCredentials(s.users, email, pass)
      case None => Step(Fail(InvalidCredentials), s)
      case Some(i) =>
        var u := s.users[i];
        if !u.confirmed then Step(Fail(NotConfirmed), s)
        else if u.banned then Step(Fail(Banned), s)
        else Step(Ok(Redact(u)), s.(session := Some(Redact(u))))
  }

  /** `Auth.logout` without its redirect: the session slot is emptied. */
  function Logout(s: Store): (r: Store)
    ensures !IsLoggedIn(r) && !IsAdmin(r) && !IsSeller(r)
    ensures r.(session := s.session) == s
  {
    s.(session := None)
  }

  /** Logging out after a successful login leaves exactly what was there
      before, with an empty session slot. */
  lemma LoginLogout(s: Store, email: string, pass: string)
    requires Login(s, email, pass).reply.Ok?
    ensures Logout(Login(s, email, pass).store) == Logout(s)
    ensures Login(s, email, pass).store.session == Some(Login(s, email, pass).reply.value)
    ensures Login(s, email, pass).reply.value.password.None?
    ensures var t, u := Login(s, email, pass).store, Login(s, email, pass).reply.value;
      && IsLoggedIn(t)
      && (IsAdmin(t) <==> u.role == Admin)
      && (IsSeller(t) <==> u.role != Buyer)
  {
    var k := FindCredentials(s.users, email, pass).value;
    assert FirstCredentials(s.users, email, pass, k);
  }

  // ------------------------------------------------------------- register

  /** The form data `register` receives; absent optional fields are `None`. */
  datatype Registration = Registration(
    name: string,
    email: string,
    phone: Option<string>,
    password: string,
    avatar: Option<string>,
    career: Option<string>)

  /** `register` left `t` from `s`: one new unconfirmed buyer holding `token`
      at the end of the accounts, one confirmation message for it at the end
      of the messages, and nothing else changed. */
  predicate Registered(s: Store, t: Store, data: Registration, token: string, clock: nat, stamp: string, sent: string) {
    && |t.users| == |s.users| + 1
    && t.users[..|s.users|] == s.users
    && |t.messages| == |s.messages| + 1
    && t.messages[..|s.messages|] == s.messages
    && t == s.(users := t.users, messages := t.messages)
    && var u, m := t.users[|s.users|], t.messages[|s.messages|];
    && u.id == "u_" + Decimal(clock)
    && u.name == data.name
    && u.email == data.email
    && u.phone == OrElse(data.phone, "")
    && u.password == Base64.Btoa(data.password)
    && u.role == Buyer
    && u.avatar == OrElse(data.avatar, DefaultAvatar)
    && u.career == OrElse(data.career, "")
    && !u.confirmed
    && u.confirmToken == Some(token)
    && !u.banned
    && u.createdAt == stamp
    && !u.sellerRequested
    && m.kind == "email"
    && m.to == data.email
    && m.subject == ConfirmSubject
    && m.body == ConfirmBody + token
    && m.token == token
    && m.userId == u.id
    && !m.read
    && m.createdAt == sent
  }

  /** `Auth.register`. `token` stands for the random confirmation code,
      `clock` for `Date.now()`, `stamp` for the account's ISO creation time
      and `sent` for the message's, a second reading of the clock. */
  function Register(s: Store, data: Registration, token: string, clock: nat, stamp: string, sent: string): (r: Step<string>)
    ensures EmailTaken(s.users, data.email) ==> r == Step(Fail(DuplicateEmail), s)
    ensures !EmailTaken(s.users, data.email) && !Base64.Latin1(data.password) ==> r == Step(Fail(EncodingFailure), s)
    ensures r.reply.Ok? <==> !EmailTaken(s.users, data.email) && Base64.Latin1(data.password)
    ensures r.reply.Ok? ==> r.reply.value == token && Registered(s, r.store, data, token, clock, stamp, sent)
  {
    if EmailTaken(s.users, data.email) then
      Step(Fail(DuplicateEmail), s)
    else
      match Base64.Btoa(data.password)
      case None => Step(Fail(EncodingFailure), s)
      case Some(enc) =>
        var user := User(
          "u_" + Decimal(clock), data.name, data.email, OrElse(data.phone, ""), Some(enc), Buyer,
          OrElse(data.avatar, DefaultAvatar), OrElse(data.career, ""), false, Some(token), false, stamp, false);
        var msg := Message("email", data.email, ConfirmSubject, ConfirmBody + token, token, user.id, false, sent);
        Step(Ok(token), s.(users := s.users + [user], messages := s.messages + [msg]))
  }

  /** Once registered, an e-mail is taken in every letter case: a second
      registration with it fails and changes nothing. */
  lemma {:induction false} RegisterTwice(s: Store, data: Registration, again: Registration, token: string, token': string, clock: nat, clock': nat, stamp: string, stamp': string, sent: string, sent': string)
    requires Register(s, data, token, clock, stamp, sent).reply.Ok?
    requires SameEmail(again.email, data.email)
    ensures var t := Register(s, data, token, clock, stamp, sent).store;
      Register(t, again, token', clock', stamp', sent') == Step(Fail(DuplicateEmail), t)
  {
    var t := Register(s, data, token, clock, stamp, sent).store;
    assert SameEmail(t.users[|s.users|].email, again.email);
  }

  // ----------------------------------------------------- confirm account

  predicate HoldsToken(users: seq<User>, token: string, i: int) {
    0 <= i < |users| && users[i].confirmToken == Some(token)
  }

  /** `i` is the account `findIndex` picks for `token`. */
  predicate FirstHolder(users: seq<User>, token: string, i: int) {
    HoldsToken(users, token, i) && forall j :: 0 <= j < i ==> !HoldsToken(users, token, j)
  }

  function FindHolder(users: seq<User>, token: string): (r: Option<nat>)
    ensures r.Some? ==> FirstHolder(users, token, r.value)
    ensures r.None? <==> forall i :: !HoldsToken(users, token, i)
  {
    FindIndex(users, (u: User) => u.confirmToken == Some(token))
  }

  /** The account after confirmation: confirmed, token cleared. */
  function Confirm(u: User): (r: User)
    ensures r.confirmed && r.confirmToken.None?
    ensures r.(confirmed := u.confirmed, confirmToken := u.confirmToken) == u
  {
    u.(confirmed := true, confirmToken := None)
  }

  /** `Auth.confirmAccount`: a token exchange that succeeds exactly when some
      account holds the token, and then confirms the first such account only. */
  function ConfirmAccount(s: Store, token: string): (r: Step<()>)
    ensures r.reply.Ok? <==> exists i :: HoldsToken(s.users, token, i)
    ensures r.reply.Fail? ==> r == Step(Fail(InvalidToken), s)
    ensures forall i :: FirstHolder(s.users, token, i) ==>
      r.store == s.(users := s.users[i := Confirm(s.users[i])])
  {
    match FindHolder(s.users, token)
    case None => Step(Fail(InvalidToken), s)
    case Some(i) => Step(Ok(()), s.(users := s.users[i := Confirm(s.users[i])]))
  }

  /** A token works once: repeating a successful confirmation succeeds only
      when a second account held the same token. */
  lemma ConfirmSingleUse(s: Store, token: string)
    requires ConfirmAccount(s, token).reply.Ok?
    ensures ConfirmAccount(ConfirmAccount(s, token).store, token).reply.Ok?
      <==> exists i, j :: i != j && HoldsToken(s.users, token, i) && HoldsToken(s.users, token, j)
  {
    var k := FindHolder(s.users, token).value;
    var t := ConfirmAccount(s, token).store;
    assert t.users == s.users[k := Confirm(s.users[k])];
    assert forall i :: HoldsToken(t.users, token, i) <==> i != k && HoldsToken(s.users, token, i);
    if exists i, j :: i != j && HoldsToken(s.users, token, i) && HoldsToken(s.users, token, j) {
      var i, j :| i != j && HoldsToken(s.users, token, i) && HoldsToken(s.users, token, j);
      if i == k {
        assert HoldsToken(t.users, token, j);
      } else {
        assert HoldsToken(t.users, token, i);
      }
    }
  }

  // ------------------------------------------------------- update profile

  /** The fields an `Object.assign` onto an account may carry; `None` means
      the field is absent from the patch. A password is stored as given, and
      a patch may set or clear the confirmation token. */
  datatype ProfilePatch = ProfilePatch(
    id: Option<string>,
    name: Option<string>,
    email: Option<string>,
    phone: Option<string>,
    password: Option<string>,
    role: Option<Role>,
    avatar: Option<string>,
    career: Option<string>,
    confirmed: Option<bool>,
    confirmToken: Option<Option<string>>,
    banned: Option<bool>,
    createdAt: Option<string>,
    sellerRequested: Option<bool>)

  /** `Object.assign(user, patch)`. */
  function Merge(u: User, p: ProfilePatch): User {
    User(
      p.id.GetOr(u.id), p.name.GetOr(u.name), p.email.GetOr(u.email), p.phone.GetOr(u.phone),
      if p.password.Some? then Some(p.password.value) else u.password,
      p.role.GetOr(u.role), p.avatar.GetOr(u.avatar), p.career.GetOr(u.career),
      p.confirmed.GetOr(u.confirmed), p.confirmToken.GetOr(u.confirmToken), p.banned.GetOr(u.banned),
      p.createdAt.GetOr(u.createdAt),
      p.sellerRequested.GetOr(u.sellerRequested))
  }

  predicate FirstWithId(users: seq<User>, id: string, i: int) {
    0 <= i < |users| && users[i].id == id && forall j :: 0 <= j < i ==> users[j].id != id
  }

  function FindUser(users: seq<User>, id: string): (r: Option<nat>)
    ensures r.Some? ==> FirstWithId(users, id, r.value)
    ensures r.None? <==> forall i :: 0 <= i < |users| ==> users[i].id != id
  {
    FindIndex(users, (u: User) => u.id == id)
  }

  /** `Auth.updateProfile`, which reads the id of the current session (it
      would throw with none). The patch is merged into the first account
      with that id and the session is refreshed from the merged account. */
  function UpdateProfile(s: Store, patch: ProfilePatch): (r: Step<()>)
    requires s.session.Some?
    ensures (forall i :: 0 <= i < |s.users| ==> s.users[i].id != s.session.value.id) ==> r == Step(Fail(NotFound), s)
    ensures forall i :: FirstWithId(s.users, s.session.value.id, i) ==>
      var u := Merge(s.users[i], patch);
      r == Step(Ok(()), s.(users := s.users[i := u], session := Some(Redact(u))))
  {
    match FindUser(s.users, s.session.value.id)
    case None => Step(Fail(NotFound), s)
    case Some(i) =>
      var u := Merge(s.users[i], patch);
      Step(Ok(()), s.(users := s.users[i := u], session := Some(Redact(u))))
  }

  /** Applying the same profile patch twice is applying it once, as long as
      the patch does not rename the account. */
  lemma UpdateProfileIdempotent(s: Store, patch: ProfilePatch)
    requires s.session.Some?
    requires patch.id.None?
    ensures var t := UpdateProfile(s, patch).store;
      t.session.Some? && UpdateProfile(t, patch) == Step(UpdateProfile(s, patch).reply, t)
  {
    var t := UpdateProfile(s, patch).store;
    match FindUser(s.users, s.session.value.id)
    case None =>
    case Some(k) =>
      var u := Merge(s.users[k], patch);
      assert t.users == s.users[k := u];
      assert FirstWithId(t.users, t.session.value.id, k);
      assert Merge(u, patch) == u;
      assert t.users[k := Merge(t.users[k], patch)] == t.users;
  }

  // ------------------------------------------------------------ scenarios

  /** The confirmation flow end to end: a fresh registration cannot log in
      until its token is exchanged, and then logs in as the new account. */
  lemma {:induction false} RegisterConfirmLogin(s: Store, data: Registration, token: string, clock: nat, stamp: string, sent: string)
    requires Register(s, data, token, clock, stamp, sent).reply.Ok?
    requires forall i :: !HoldsToken(s.users, token, i)
    ensures var t := Register(s, data, token, clock, stamp, sent).store;
      && Login(t, data.email, data.password).reply == Fail(NotConfirmed)
      && ConfirmAccount(t, token).reply.Ok?
      && var c := ConfirmAccount(t, token).store;
      && Login(c, data.email, data.password).reply.Ok?
      && Login(c, data.email, data.password).reply.value.id == "u_" + Decimal(clock)
  {
    var t := Register(s, data, token, clock, stamp, sent).store;
    var n := |s.users|;
    assert forall j :: 0 <= j < n ==> t.users[j] == s.users[j];
    assert FirstCredentials(t.users, data.email, data.password, n);
    forall j | 0 <= j < n
      ensures !HoldsToken(t.users, token, j)
    {
      assert !HoldsToken(s.users, token, j);
    }
    assert FirstHolder(t.users, token, n);
    var c := ConfirmAccount(t, token).store;
    assert c.users == t.users[n := Confirm(t.users[n])];
    assert FirstCredentials(c.users, data.email, data.password, n);
  }
}

=== FILE: base64.dfy ===
/** The browser's `btoa`, which the storefront uses to store and compare
    passwords: the Base64 text (section 4 of RFC 4648, with `=` padding) of
    the string's character codes, defined only when every code fits in a byte. */
module Base64 {
  import opened Wrappers

  type Byte = b: int | 0 <= b < 256

  /** The symbol of a six-bit value in the standard alphabet. */
  function Symbol(v: int): char
    requires 0 <= v < 64
  {
    if v < 26 then (65 + v) as char
    else if v < 52 then (97 + (v - 26)) as char
    else if v < 62 then (48 + (v - 52)) as char
    else if v == 62 then '+'
    else '/'
  }

  /** The six-bit value of an alphabet symbol (0 for any other character). */
  function Value(c: char): int {
    if 'A' <= c <= 'Z' then c as int - 65
    else if 'a' <= c <= 'z' then c as int - 71
    else if '0' <= c <= '9' then c as int + 4
    else if c == '+' then 62
    else if c == '/' then 63
    else 0
  }

  lemma ValueOfSymbol(v: int)
    requires 0 <= v < 64
    ensures Value(Symbol(v)) == v
    ensures Symbol(v) != '='
  {
  }

  /** Three bytes become four symbols. */
  function Group(b0: Byte, b1: Byte, b2: Byte): (r: string)
    ensures |r| == 4
  {
    [Symbol(b0 / 4), Symbol(b0 % 4 * 16 + b1 / 16), Symbol(b1 % 16 * 4 + b2 / 64), Symbol(b2 % 64)]
  }

  /** Base64 of a byte sequence; a final group of one or two bytes is padded with `=`. */
  function EncodeBytes(b: seq<Byte>): (r: string)
    ensures |r| == 4 * ((|b| + 2) / 3)
    decreases |b|
  {
    if |b| == 0 then ""
    else if |b| == 1 then [Symbol(b[0] / 4), Symbol(b[0] % 4 * 16), '=', '=']
    else if |b| == 2 then [Symbol(b[0] / 4), Symbol(b[0] % 4 * 16 + b[1] / 16), Symbol(b[1] % 16 * 4), '=']
    else Group(b[0], b[1], b[2]) + EncodeBytes(b[3..])
  }

  /** `atob` of one four-symbol group. */
  function DecodeGroup(g: string): seq<int>
    requires |g| == 4
  {
    var v0, v1, v2, v3 := Value(g[0]), Value(g[1]), Value(g[2]), Value(g[3]);
    if g[2] == '=' then [v0 * 4 + v1 / 16]
    else if g[3] == '=' then [v0 * 4 + v1 / 16, v1 % 16 * 16 + v2 / 4]
    else [v0 * 4 + v1 / 16, v1 % 16 * 16 + v2 / 4, v2 % 4 * 64 + v3]
  }

  /** `atob`, group by group. */
  function Decode(t: string): seq<int>
    decreases |t|
  {
    if |t| < 4 then [] else DecodeGroup(t[..4]) + Decode(t[4..])
  }

  lemma GroupRoundTrip(b0: Byte, b1: Byte, b2: Byte)
    ensures DecodeGroup(Group(b0, b1, b2)) == [b0, b1, b2]
  {
    var g := Group(b0, b1, b2);
    ValueOfSymbol(b0 / 4);
    ValueOfSymbol(b0 % 4 * 16 + b1 / 16);
    ValueOfSymbol(b1 % 16 * 4 + b2 / 64);
    ValueOfSymbol(b2 % 64);
    assert (b0 % 4 * 16 + b1 / 16) / 16 == b0 % 4;
    assert (b0 % 4 * 16 + b1 / 16) % 16 == b1 / 16;
    assert (b1 % 16 * 4 + b2 / 64) / 4 == b1 % 16;
    assert (b1 % 16 * 4 + b2 / 64) % 4 == b2 / 64;
  }

  lemma OneByteRoundTrip(b0: Byte)
    ensures DecodeGroup([Symbol(b0 / 4), Symbol(b0 % 4 * 16), '=', '=']) == [b0]
  {
    ValueOfSymbol(b0 / 4);
    ValueOfSymbol(b0 % 4 * 16);
  }

  lemma TwoByteRoundTrip(b0: Byte, b1: Byte)
    ensures DecodeGroup([Symbol(b0 / 4), Symbol(b0 % 4 * 16 + b1 / 16), Symbol(b1 % 16 * 4), '=']) == [b0, b1]
  {
    ValueOfSymbol(b0 / 4);
    ValueOfSymbol(b0 % 4 * 16 + b1 / 16);
    ValueOfSymbol(b1 % 16 * 4);
    assert (b0 % 4 * 16 + b1 / 16) / 16 == b0 % 4;
    assert (b0 % 4 * 16 + b1 / 16) % 16 == b1 / 16;
  }

  /** A group followed by more text decodes group first. */
  lemma DecodeAppend(g: string, rest: string)
    requires |g| == 4
    ensures Decode(g + rest) == DecodeGroup(g) + Decode(rest)
  {
    assert (g + rest)[..4] == g && (g + rest)[4..] == rest;
  }

  /** Decoding undoes encoding. */
  lemma {:induction false} DecodeEncode(b: seq<Byte>)
    ensures Decode(EncodeBytes(b)) == b
    decreases |b|
  {
    if |b| == 1 {
      OneByteRoundTrip(b[0]);
      DecodeAppend(EncodeBytes(b), "");
    } else if |b| == 2 {
      TwoByteRoundTrip(b[0], b[1]);
      DecodeAppend(EncodeBytes(b), "");
    } else if |b| >= 3 {
      DecodeAppend(Group(b[0], b[1], b[2]), EncodeBytes(b[3..]));
      GroupRoundTrip(b[0], b[1], b[2]);
      DecodeEncode(b[3..]);
      assert b == [b[0], b[1], b[2]] + b[3..];
    }
  }

  /** Every character code fits in one byte (JavaScript's "Latin-1" strings). */
  predicate Latin1(s: string) {
    forall i :: 0 <= i < |s| ==> s[i] as int < 256
  }

  function Codes(s: string): (b: seq<Byte>)
    requires Latin1(s)
    ensures |b| == |s|
    ensures forall i :: 0 <= i < |s| ==> b[i] == s[i] as int
  {
    seq(|s|, i requires 0 <= i < |s| => s[i] as int)
  }

  /** `btoa(s)`; `None` where the browser throws InvalidCharacterError. */
  function Btoa(s: string): (r: Option<string>)
    ensures r.Some? <==> Latin1(s)
    ensures r.Some? ==> |r.value| == 4 * ((|s| + 2) / 3)
  {
    if Latin1(s) then Some(EncodeBytes(Codes(s))) else None
  }

  /** Two strings with the same Base64 text are equal: comparing encoded
      passwords compares the passwords. */
  lemma BtoaInjective(a: string, b: string)
    requires Btoa(a).Some? && Btoa(a) == Btoa(b)
    ensures a == b
  {
    DecodeEncode(Codes(a));
    DecodeEncode(Codes(b));
    assert Codes(a) == Codes(b);
    assert forall i :: 0 <= i < |a| ==> a[i] as int == b[i] as int;
  }

  /** The test vectors of section 10 of RFC 4648. */
  lemma TestVectors()
    ensures Btoa("f") == Some("Zg==")
    ensures Btoa("fo") == Some("Zm8=")
    ensures Btoa("foo") == Some("Zm9v")
    ensures Btoa("foobar") == Some("Zm9vYmFy")
  {
    assert Codes("f") == [102];
    assert Codes("fo") == [102, 111];
    var foo: seq<Byte> := [102, 111, 111];
    var bar: seq<Byte> := [98, 97, 114];
    assert Codes("foo") == foo;
    assert Codes("foobar") == foo + bar;
    assert foo[3..] == [] && bar[3..] == [] && (foo + bar)[3..] == bar;
    assert EncodeBytes(foo) == "Zm9v";
    assert EncodeBytes(bar) == "YmFy";
    assert EncodeBytes(foo + bar) == "Zm9v" + "YmFy";
    assert "Zm9v" + "YmFy" == "Zm9vYmFy";
    assert Btoa("foobar") == Some(EncodeBytes(Codes("foobar")));
  }
}

=== FILE: cart.dfy ===
/** `Cart`: a list of lines keyed by product id, with quantities merged on
    add; the total and the item count are derived from the lines. */
module Cart {
  import opened Wrappers
  import opened Seqs
  import opened Records

  /** The line `add` appends for a product not yet in the cart: a snapshot
      of its title, price and first image (or `''`). */
  function Line(p: Product, qty: int): CartItem {
    CartItem(p.id, p.title, p.price, if |p.images| > 0 then p.images[0] else "", qty)
  }

  predicate HasLine(items: seq<CartItem>, id: string) {
    exists i :: 0 <= i < |items| && items[i].productId == id
  }

  predicate FirstLine(items: seq<CartItem>, id: string, i: int) {
    0 <= i < |items| && items[i].productId == id && forall j :: 0 <= j < i ==> items[j].productId != id
  }

  function FindLine(items: seq<CartItem>, id: string): (r: Option<nat>)
    ensures r.Some? ==> FirstLine(items, id, r.value)
    ensures r.None? <==> !HasLine(items, id)
  {
    FindIndex(items, (it: CartItem) => it.productId == id)
  }

  /** No product has two lines. */
  predicate UniqueLines(items: seq<CartItem>) {
    forall i, j :: 0 <= i < j < |items| ==> items[i].productId != items[j].productId
  }

  // ------------------------------------------------------------- sums

  /** What one line contributes to the total. */
  function LineTotal(it: CartItem): real {
    it.price * it.qty as real
  }

  /** Σ price·qty over the lines. */
  function Total(items: seq<CartItem>): real {
    if |items| == 0 then 0.0 else LineTotal(items[0]) + Total(items[1..])
  }

  /** Σ qty over the lines. */
  function Count(items: seq<CartItem>): int {
    if |items| == 0 then 0 else items[0].qty + Count(items[1..])
  }

  /** Σ qty over the lines of one product. */
  function QtyOf(items: seq<CartItem>, id: string): int {
    if |items| == 0 then 0
    else (if items[0].productId == id then items[0].qty else 0) + QtyOf(items[1..], id)
  }

  lemma {:induction false} TotalAppend(a: seq<CartItem>, b: seq<CartItem>)
    ensures Total(a + b) == Total(a) + Total(b)
    decreases |a|
  {
    if |a| == 0 {
      assert a + b == b;
    } else {
      TotalAppend(a[1..], b);
      assert (a + b)[1..] == a[1..] + b;
    }
  }

  lemma {:induction false} CountAppend(a: seq<CartItem>, b: seq<CartItem>)
    ensures Count(a + b) == Count(a) + Count(b)
    decreases |a|
  {
    if |a| == 0 {
      assert a + b == b;
    } else {
      CountAppend(a[1..], b);
      assert (a + b)[1..] == a[1..] + b;
    }
  }

  /** Replacing one line moves the total by the difference of its price·qty. */
  lemma {:induction false} TotalReplace(items: seq<CartItem>, i: nat, x: CartItem)
    requires i < |items|
    ensures Total(items[i := x]) == Total(items) - LineTotal(items[i]) + LineTotal(x)
    decreases |items|
  {
    if i > 0 {
      TotalReplace(items[1..], i - 1, x);
      assert items[i := x][1..] == items[1..][i - 1 := x];
    } else {
      assert items[i := x][1..] == items[1..];
    }
  }

  /** Replacing one line moves the count by the difference of its qty. */
  lemma {:induction false} CountReplace(items: seq<CartItem>, i: nat, x: CartItem)
    requires i < |items|
    ensures Count(items[i := x]) == Count(items) - items[i].qty + x.qty
    decreases |items|
  {
    if i > 0 {
      CountReplace(items[1..], i - 1, x);
      assert items[i := x][1..] == items[1..][i - 1 := x];
    } else {
      assert items[i := x][1..] == items[1..];
    }
  }

  /** `Cart.total()`: the `reduce` over the lines. */
  method TotalOf(items: seq<CartItem>) returns (t: real)
    ensures t == Total(items)
  {
    t := 0.0;
    var i := 0;
    while i < |items|
      invariant 0 <= i <= |items|
      invariant t == Total(items[..i])
    {
      TotalAppend(items[..i], [items[i]]);
      assert items[..i + 1] == items[..i] + [items[i]];
      t := t + LineTotal(items[i]);
      i := i + 1;
    }
    assert items[..i] == items;
  }

  /** `Cart.count()`: the `reduce` over the lines. */
  method CountOf(items: seq<CartItem>) returns (n: int)
    ensures n == Count(items)
  {
    n := 0;
    var i := 0;
    while i < |items|
      invariant 0 <= i <= |items|
      invariant n == Count(items[..i])
    {
      CountAppend(items[..i], [items[i]]);
      assert items[..i + 1] == items[..i] + [items[i]];
      n := n + items[i].qty;
      i := i + 1;
    }
    assert items[..i] == items;
  }

  // ----------------------------------------------------------------- add

  /** The line at `k` grows by `n`. */
  function Bump(items: seq<CartItem>, k: nat, n: int): seq<CartItem>
    requires k < |items|
  {
    items[k := items[k].(qty := items[k].qty + n)]
  }

  /** `Cart.add`: an existing line for the product grows by `qty`; otherwise
      one new line is appended. */
  function Add(items: seq<CartItem>, p: Product, qty: int): (r: seq<CartItem>)
    ensures !HasLine(items, p.id) ==> r == items + [Line(p, qty)]
    ensures forall i :: FirstLine(items, p.id, i) ==> r == Bump(items, i, qty)
  {
    match FindLine(items, p.id)
    case Some(i) => Bump(items, i, qty)
    case None => items + [Line(p, qty)]
  }

  lemma AddKeepsLinesUnique(items: seq<CartItem>, p: Product, qty: int)
    requires UniqueLines(items)
    ensures UniqueLines(Add(items, p, qty))
  {
    if HasLine(items, p.id) {
      var k := FindLine(items, p.id).value;
      assert FirstLine(items, p.id, k);
    }
  }

  /** The price a further `add` of `p` is charged at: the snapshot already in
      the cart, if there is one, else the product's current price. */
  function UnitPrice(items: seq<CartItem>, p: Product): real {
    match FindLine(items, p.id)
    case Some(i) => items[i].price
    case None => p.price
  }

  lemma AddToLineSums(items: seq<CartItem>, p: Product, qty: int, i: nat)
    requires FirstLine(items, p.id, i)
    ensures Count(Add(items, p, qty)) == Count(items) + qty
    ensures Total(Add(items, p, qty)) == Total(items) + items[i].price * qty as real
  {
    AddAt(items, p, qty, i);
    var x := items[i].(qty := items[i].qty + qty);
    assert Bump(items, i, qty) == items[i := x];
    CountReplace(items, i, x);
    TotalReplace(items, i, x);
    LineGrows(items[i], qty);
  }

  lemma LineGrows(it: CartItem, qty: int)
    ensures LineTotal(it.(qty := it.qty + qty)) == LineTotal(it) + it.price * qty as real
  {
  }

  lemma AddNewLineSums(items: seq<CartItem>, p: Product, qty: int)
    requires !HasLine(items, p.id)
    ensures Count(Add(items, p, qty)) == Count(items) + qty
    ensures Total(Add(items, p, qty)) == Total(items) + p.price * qty as real
  {
    CountAppend(items, [Line(p, qty)]);
    TotalAppend(items, [Line(p, qty)]);
    assert Count([Line(p, qty)]) == qty;
    assert Total([Line(p, qty)]) == LineTotal(Line(p, qty));
  }

  /** Adding raises the count by `qty` and the total by `qty` units at the
      line's price. */
  lemma AddSums(items: seq<CartItem>, p: Product, qty: int)
    ensures Count(Add(items, p, qty)) == Count(items) + qty
    ensures Total(Add(items, p, qty)) == Total(items) + UnitPrice(items, p) * qty as real
  {
    var f := FindLine(items, p.id);
    if f.Some? {
      AddToLineSums(items, p, qty, f.value);
    } else {
      AddNewLineSums(items, p, qty);
    }
  }

  /** `Cart.add(product)` with the default quantity of one: one more unit,
      charged at the line's price. */
  function AddOne(items: seq<CartItem>, p: Product): (r: seq<CartItem>)
    ensures Count(r) == Count(items) + 1
    ensures Total(r) == Total(items) + UnitPrice(items, p)
    ensures HasLine(r, p.id)
    ensures !HasLine(items, p.id) ==> r == items + [Line(p, 1)]
    ensures forall i :: FirstLine(items, p.id, i) ==> r == Bump(items, i, 1)
  {
    AddSums(items, p, 1);
    AddHasLine(items, p, 1);
    Add(items, p, 1)
  }

  lemma AddHasLine(items: seq<CartItem>, p: Product, qty: int)
    ensures HasLine(Add(items, p, qty), p.id)
  {
    match FindLine(items, p.id)
    case Some(i) =>
      assert Add(items, p, qty)[i].productId == p.id;
    case None =>
      assert Add(items, p, qty)[|items|].productId == p.id;
  }

  /** A run of `add` calls for one product. */
  function AddEach(items: seq<CartItem>, p: Product, qtys: seq<int>): seq<CartItem>
    decreases |qtys|
  {
    if |qtys| == 0 then items else AddEach(Add(items, p, qtys[0]), p, qtys[1..])
  }

  function IntSum(xs: seq<int>): int {
    if |xs| == 0 then 0 else xs[0] + IntSum(xs[1..])
  }

  lemma BumpTwice(items: seq<CartItem>, k: nat, a: int, b: int)
    requires k < |items|
    ensures Bump(Bump(items, k, a), k, b) == Bump(items, k, a + b)
  {
  }

  lemma BumpSum(items: seq<CartItem>, qtys: seq<int>, k: nat)
    requires k < |items|
    requires |qtys| > 0
    ensures Bump(Bump(items, k, qtys[0]), k, IntSum(qtys[1..])) == Bump(items, k, IntSum(qtys))
  {
    BumpTwice(items, k, qtys[0], IntSum(qtys[1..]));
  }

  lemma BumpZero(items: seq<CartItem>, k: nat)
    requires k < |items|
    ensures Bump(items, k, 0) == items
  {
    assert items[k].(qty := items[k].qty + 0) == items[k];
  }

  lemma BumpKeepsFirst(items: seq<CartItem>, id: string, k: nat, n: int)
    requires FirstLine(items, id, k)
    ensures FirstLine(Bump(items, k, n), id, k)
  {
  }

  lemma AddAt(items: seq<CartItem>, p: Product, qty: int, k: nat)
    requires FirstLine(items, p.id, k)
    ensures Add(items, p, qty) == Bump(items, k, qty)
  {
  }

  lemma {:induction false} AddEachToLine(items: seq<CartItem>, p: Product, qtys: seq<int>, k: nat)
    requires FirstLine(items, p.id, k)
    ensures AddEach(items, p, qtys) == Bump(items, k, IntSum(qtys))
    decreases |qtys|
  {
    if |qtys| > 0 {
      AddAt(items, p, qtys[0], k);
      BumpKeepsFirst(items, p.id, k, qtys[0]);
      AddEachToLine(Bump(items, k, qtys[0]), p, qtys[1..], k);
      BumpSum(items, qtys, k);
    } else {
      BumpZero(items, k);
    }
  }

  lemma NewLineBumped(items: seq<CartItem>, p: Product, a: int, b: int)
    ensures Bump(items + [Line(p, a)], |items|, b) == items + [Line(p, a + b)]
  {
  }

  /** Repeated adds of one product keep a single line for it, whose
      quantity is the sum of the quantities added. */
  lemma AddEachAccumulates(items: seq<CartItem>, p: Product, qtys: seq<int>)
    requires |qtys| > 0
    requires !HasLine(items, p.id)
    ensures AddEach(items, p, qtys) == items + [Line(p, IntSum(qtys))]
  {
    var t := items + [Line(p, qtys[0])];
    assert Add(items, p, qtys[0]) == t;
    assert FirstLine(t, p.id, |items|);
    AddEachToLine(t, p, qtys[1..], |items|);
    NewLineBumped(items, p, qtys[0], IntSum(qtys[1..]));
  }

  // ------------------------------------------------------ remove, update

  function OtherLine(id: string): CartItem -> bool {
    (it: CartItem) => it.productId != id
  }

  /** `Cart.remove`: every line of the product goes; the rest keep their order. */
  function Remove(items: seq<CartItem>, id: string): (r: seq<CartItem>)
    ensures !HasLine(r, id)
    ensures forall i :: 0 <= i < |r| ==> r[i] in items
    ensures forall i :: 0 <= i < |items| && items[i].productId != id ==> items[i] in r
    ensures forall i :: 0 <= i < |items| ==>
      multiset(r)[items[i]] == if items[i].productId != id then multiset(items)[items[i]] else 0
    ensures Picks(items, r, OtherLine(id))
  {
    FilterCounts(items, OtherLine(id));
    FilterPicks(items, OtherLine(id));
    Filter(items, OtherLine(id))
  }

  /** Removing a product's lines lowers the count by that product's quantity. */
  lemma {:induction false} RemoveCount(items: seq<CartItem>, id: string)
    ensures Count(Remove(items, id)) == Count(items) - QtyOf(items, id)
    decreases |items|
  {
    if |items| > 0 {
      RemoveCount(items[1..], id);
      if items[0].productId != id {
        assert Remove(items, id) == [items[0]] + Remove(items[1..], id);
        CountAppend([items[0]], Remove(items[1..], id));
      }
    }
  }

  /** `Cart.updateQty`: a positive quantity overwrites the first line of
      the product; zero or less removes the product (as `remove`); an id
      with no line changes nothing. */
  function UpdateQty(items: seq<CartItem>, id: string, qty: int): (r: seq<CartItem>)
    ensures !HasLine(items, id) ==> r == items
    ensures HasLine(items, id) && qty <= 0 ==> r == Remove(items, id)
    ensures qty > 0 ==> forall i :: FirstLine(items, id, i) ==> r == items[i := items[i].(qty := qty)]
  {
    match FindLine(items, id)
    case None => items
    case Some(i) => if qty <= 0 then Remove(items, id) else items[i := items[i].(qty := qty)]
  }

  /** The count after `updateQty`: the product's quantity becomes `qty`,
      or its lines disappear. */
  lemma UpdateQtyCount(items: seq<CartItem>, id: string, qty: int)
    requires UniqueLines(items)
    ensures Count(UpdateQty(items, id, qty)) ==
      if !HasLine(items, id) then Count(items)
      else Count(items) - QtyOf(items, id) + (if qty > 0 then qty else 0)
  {
    match FindLine(items, id)
    case None =>
    case Some(i) =>
      UniqueQty(items, id, i);
      if qty <= 0 {
        RemoveCount(items, id);
      } else {
        CountReplace(items, i, items[i].(qty := qty));
      }
  }

  /** With unique lines, a product's quantity is that of its one line. */
  lemma {:induction false} UniqueQty(items: seq<CartItem>, id: string, i: nat)
    requires UniqueLines(items)
    requires i < |items| && items[i].productId == id
    ensures QtyOf(items, id) == items[i].qty
    decreases |items|
  {
    if i > 0 {
      UniqueQty(items[1..], id, i - 1);
    } else {
      NoLineNoQty(items[1..], id);
    }
  }

  lemma {:induction false} NoLineNoQty(items: seq<CartItem>, id: string)
    requires !HasLine(items, id)
    ensures QtyOf(items, id) == 0
    decreases |items|
  {
    if |items| > 0 {
      assert !HasLine(items[1..], id) by {
        forall j | 0 <= j < |items| - 1
          ensures items[1..][j].productId != id
        {
          assert items[1..][j] == items[j + 1];
        }
      }
      NoLineNoQty(items[1..], id);
    }
  }

  lemma UpdateQtyKeepsLinesUnique(items: seq<CartItem>, id: string, qty: int)
    requires UniqueLines(items)
    ensures UniqueLines(UpdateQty(items, id, qty))
  {
    if HasLine(items, id) && qty <= 0 {
      FilterKeepsUnique(items, OtherLine(id));
    }
  }

  lemma {:induction false} FilterKeepsUnique(items: seq<CartItem>, p: CartItem -> bool)
    requires UniqueLines(items)
    ensures UniqueLines(Filter(items, p))
    decreases |items|
  {
    if |items| > 0 {
      FilterKeepsUnique(items[1..], p);
      var rest := Filter(items[1..], p);
      forall i | 0 <= i < |rest|
        ensures rest[i].productId != items[0].productId
      {
        assert rest[i] in items[1..];
      }
    }
  }

  /** `Cart.clear`. */
  function Clear(items: seq<CartItem>): (r: seq<CartItem>)
    ensures Count(r) == 0 && Total(r) == 0.0
    ensures forall id :: !HasLine(r, id)
  {
    []
  }

  /** `Cart.save`: the in-page lines become the stored cart, and nothing
      else in the store changes. */
  function Save(s: Store, items: seq<CartItem>): (r: Store)
    ensures r.cart == items
    ensures r.(cart := s.cart) == s
  {
    s.(cart := items)
  }
}

=== FILE: db.dfy ===
/** `DB`: the browser's local storage seen as a map from raw keys to stored
    JSON, with every collection key carrying the `cs_` prefix, and the typed
    view of the store that the domain operations work on. */
module Db {
  import opened Wrappers
  import opened Records

  const Prefix := "cs_"

  /** What the browser holds under one raw key: text that parses to a
      value, or text that does not. */
  datatype Entry<V> = Json(value: V) | Unparsable

  type Backend<V> = map<string, Entry<V>>

  /** `DB.get(key, fallback)`: the stored value, or the fallback when the
      key is absent or its text does not parse. */
  function Get<V>(b: Backend<V>, key: string, fallback: V): (r: V)
    ensures Prefix + key !in b ==> r == fallback
    ensures Prefix + key in b && b[Prefix + key].Unparsable? ==> r == fallback
    ensures Prefix + key in b && b[Prefix + key].Json? ==> r == b[Prefix + key].value
  {
    var k := Prefix + key;
    if k in b && b[k].Json? then b[k].value else fallback
  }

  /** `DB.set(key, value)`: true when the write happened. `fits` is false
      where the browser refuses the write (quota exceeded); the failure is
      reported, not thrown, and nothing is stored. */
  function Set<V>(b: Backend<V>, key: string, v: V, fits: bool): (r: (bool, Backend<V>))
    ensures r.0 == fits
    ensures !fits ==> r.1 == b
    ensures fits ==> r.1.Keys == b.Keys + {Prefix + key}
  {
    if fits then (true, b[Prefix + key := Json(v)]) else (false, b)
  }

  /** `DB.del(key)`. */
  function Del<V>(b: Backend<V>, key: string): (r: Backend<V>)
    ensures r.Keys == b.Keys - {Prefix + key}
  {
    b - {Prefix + key}
  }

  /** Distinct collection keys never share a raw key. */
  lemma PrefixInjective(k1: string, k2: string)
    requires Prefix + k1 == Prefix + k2
    ensures k1 == k2
  {
    assert k1 == (Prefix + k1)[|Prefix|..];
    assert k2 == (Prefix + k2)[|Prefix|..];
  }

  /** Reading a key back after a successful write yields the value written. */
  lemma GetAfterSet<V>(b: Backend<V>, key: string, v: V, fallback: V)
    ensures Get(Set(b, key, v, true).1, key, fallback) == v
  {
  }

  /** A write to one key, successful or not, leaves every other key as it was. */
  lemma GetAfterOtherSet<V>(b: Backend<V>, key: string, other: string, v: V, fits: bool, fallback: V)
    requires key != other
    ensures Get(Set(b, other, v, fits).1, key, fallback) == Get(b, key, fallback)
  {
    if Prefix + key == Prefix + other {
      PrefixInjective(key, other);
    }
  }

  /** After a delete the key reads as its fallback. */
  lemma GetAfterDel<V>(b: Backend<V>, key: string, fallback: V)
    ensures Get(Del(b, key), key, fallback) == fallback
  {
  }

  /** The JSON values the storefront writes: one shape per collection key. */
  datatype Value =
    | UserList(users: seq<User>)
    | ProductList(products: seq<Product>)
    | OrderList(orders: seq<Order>)
    | CartLines(cart: seq<CartItem>)
    | SessionUser(user: User)
    | MessageList(messages: seq<Message>)
    | Flag(flag: bool)
    | Null

  /** The typed store a page sees: each collection read with the fallback
      its getter supplies (`[]`, or `null` for the session and the flag). */
  function Load(b: Backend<Value>): (s: Store)
    ensures b == map[] ==> s == Blank
  {
    Store(
      (match Get(b, "users", UserList([])) case UserList(u) => u case _ => []),
      (match Get(b, "products", ProductList([])) case ProductList(p) => p case _ => []),
      (match Get(b, "orders", OrderList([])) case OrderList(o) => o case _ => []),
      (match Get(b, "cart", CartLines([])) case CartLines(c) => c case _ => []),
      (match Get(b, "session", Null) case SessionUser(u) => Some(u) case _ => None),
      (match Get(b, "messages", MessageList([])) case MessageList(m) => m case _ => []),
      (match Get(b, "seeded", Null) case Flag(f) => f case _ => false))
  }

  /** One write of a `save*` call: `Some` is `DB.set`, `None` is `DB.del`. */
  function Write<V>(b: Backend<V>, w: (string, Option<V>)): Backend<V> {
    match w.1
    case Some(v) => Set(b, w.0, v, true).1
    case None => Del(b, w.0)
  }

  /** A series of writes, in order. */
  function WriteAll<V>(b: Backend<V>, ws: seq<(string, Option<V>)>): Backend<V>
    decreases |ws|
  {
    if |ws| == 0 then b else WriteAll(Write(b, ws[0]), ws[1..])
  }

  /** Writes to other keys leave a key's reading alone. */
  lemma {:induction false} WriteAllUntouched<V>(b: Backend<V>, ws: seq<(string, Option<V>)>, key: string, fallback: V)
    requires forall j :: 0 <= j < |ws| ==> ws[j].0 != key
    ensures Get(WriteAll(b, ws), key, fallback) == Get(b, key, fallback)
    decreases |ws|
  {
    if |ws| > 0 {
      WriteAllUntouched(Write(b, ws[0]), ws[1..], key, fallback);
      if Prefix + key == Prefix + ws[0].0 {
        PrefixInjective(key, ws[0].0);
      }
    }
  }

  /** A key written exactly once reads as what that write stored. */
  lemma {:induction false} WriteAllReadBack<V>(b: Backend<V>, ws: seq<(string, Option<V>)>, i: nat, fallback: V)
    requires i < |ws|
    requires forall j :: 0 <= j < |ws| && j != i ==> ws[j].0 != ws[i].0
    ensures Get(WriteAll(b, ws), ws[i].0, fallback) == ws[i].1.GetOr(fallback)
    decreases |ws|
  {
    if i == 0 {
      WriteAllUntouched(Write(b, ws[0]), ws[1..], ws[0].0, fallback);
    } else {
      WriteAllReadBack(Write(b, ws[0]), ws[1..], i - 1, fallback);
    }
  }

  /** The raw keys of the seven collections, in the order they are saved. */
  const Keys := ["users", "products", "orders", "cart", "session", "messages", "seeded"]

  lemma KeysDistinct()
    ensures forall i, j :: 0 <= i < |Keys| && 0 <= j < |Keys| && i != j ==> Keys[i] != Keys[j]
  {
    var heads := ["use", "pro", "ord", "car", "ses", "mes", "see"];
    assert forall i :: 0 <= i < |Keys| ==> Keys[i][..3] == heads[i];
    assert forall i, j :: 0 <= i < |heads| && 0 <= j < |heads| && i != j ==> heads[i] != heads[j];
  }

  /** The writes that persist `s`; an empty session slot is deleted
      (`clearSession`). */
  function Writes(s: Store): (ws: seq<(string, Option<Value>)>)
    ensures |ws| == |Keys|
    ensures forall j :: 0 <= j < |ws| ==> ws[j].0 == Keys[j]
  {
    [("users", Some(UserList(s.users))),
     ("products", Some(ProductList(s.products))),
     ("orders", Some(OrderList(s.orders))),
     ("cart", Some(CartLines(s.cart))),
     ("session", if s.session.Some? then Some(SessionUser(s.session.value)) else None),
     ("messages", Some(MessageList(s.messages))),
     ("seeded", Some(Flag(s.seeded)))]
  }

  /** Writes every collection of `s` back, as the `save*` calls do. */
  function Persist(s: Store, b: Backend<Value>): Backend<Value> {
    WriteAll(b, Writes(s))
  }

  /** Writing a store and reading it back gives the same store, whatever
      the browser held before. */
  lemma LoadPersist(s: Store, b: Backend<Value>)
    ensures Load(Persist(s, b)) == s
  {
    var ws := Writes(s);
    KeysDistinct();
    WriteAllReadBack(b, ws, 0, UserList([]));
    WriteAllReadBack(b, ws, 1, ProductList([]));
    WriteAllReadBack(b, ws, 2, OrderList([]));
    WriteAllReadBack(b, ws, 3, CartLines([]));
    WriteAllReadBack(b, ws, 4, Null);
    WriteAllReadBack(b, ws, 5, MessageList([]));
    WriteAllReadBack(b, ws, 6, Null);
  }
}

=== FILE: orders.dfy ===
/** `Orders`: checkout records an order as paid, keeps only a masked card
    number, and moves each ordered quantity from stock to sold, with no
    check that the stock suffices. */
module Orders {
  import opened Wrappers
  import opened Text
  import opened Seqs
  import opened Records
  import Cart

  const Paid := "pagado"

  // ------------------------------------------------------------- queries

  predicate FirstWithId(orders: seq<Order>, id: string, i: int) {
    0 <= i < |orders| && orders[i].id == id && forall j :: 0 <= j < i ==> orders[j].id != id
  }

  predicate Unknown(orders: seq<Order>, id: string) {
    forall i :: 0 <= i < |orders| ==> orders[i].id != id
  }

  function Find(orders: seq<Order>, id: string): (r: Option<nat>)
    ensures r.Some? ==> FirstWithId(orders, id, r.value)
    ensures r.None? <==> Unknown(orders, id)
  {
    FindIndex(orders, (o: Order) => o.id == id)
  }

  /** `Orders.getById`: the first order with the id, if any. */
  function GetById(s: Store, id: string): (r: Option<Order>)
    ensures r.None? <==> Unknown(s.orders, id)
    ensures forall i :: FirstWithId(s.orders, id, i) ==> r == Some(s.orders[i])
  {
    match Find(s.orders, id)
    case None => None
    case Some(i) => Some(s.orders[i])
  }

  function ByBuyer(uid: string): Order -> bool {
    (o: Order) => o.buyerId == uid
  }

  /** `Orders.getByUser`: the buyer's orders, in the order they were placed. */
  function GetByUser(s: Store, uid: string): (r: seq<Order>)
    ensures forall i :: 0 <= i < |r| ==> r[i] in s.orders && r[i].buyerId == uid
    ensures forall i :: 0 <= i < |s.orders| && s.orders[i].buyerId == uid ==> s.orders[i] in r
    ensures forall i :: 0 <= i < |s.orders| ==>
      multiset(r)[s.orders[i]] == if s.orders[i].buyerId == uid then multiset(s.orders)[s.orders[i]] else 0
    ensures Picks(s.orders, r, ByBuyer(uid))
  {
    FilterCounts(s.orders, ByBuyer(uid));
    FilterPicks(s.orders, ByBuyer(uid));
    Filter(s.orders, ByBuyer(uid))
  }

  // ------------------------------------------------------------- payment

  /** `{ ...payment, cardNumber: '****' + cardNumber.slice(-4) }`: the card
      number keeps at most its last four characters; every other field of
      the payment is kept as sent. */
  function Mask(p: Payment): (r: Payment)
    ensures r.details == p.details
    ensures 4 <= |r.cardNumber| <= 8
    ensures r.cardNumber[..4] == "****"
    ensures var tail := r.cardNumber[4..];
      |tail| == (if |p.cardNumber| < 4 then |p.cardNumber| else 4) &&
      p.cardNumber == p.cardNumber[..|p.cardNumber| - |tail|] + tail
  {
    Payment("****" + LastN(p.cardNumber, 4), p.details)
  }

  // --------------------------------------------------------------- stock

  /** No earlier product shares the id of product `j`: the one `findIndex`
      reaches for that id. */
  predicate FirstOfId(products: seq<Product>, j: int)
    requires 0 <= j < |products|
  {
    forall i :: 0 <= i < j ==> products[i].id != products[j].id
  }

  function FindProduct(products: seq<Product>, id: string): (r: Option<nat>)
    ensures r.Some? ==> r.value < |products| && products[r.value].id == id && FirstOfId(products, r.value)
    ensures r.None? <==> forall i :: 0 <= i < |products| ==> products[i].id != id
  {
    FindIndex(products, (p: Product) => p.id == id)
  }

  /** Product `p` sells `n` units: sold up, stock down, unbounded. */
  function Sells(p: Product, n: int): Product {
    p.(sold := p.sold + n, stock := p.stock - n)
  }

  /** One line item: the first product with its id sells its quantity;
      an unknown id is skipped. */
  function SellItem(products: seq<Product>, item: CartItem): seq<Product> {
    match FindProduct(products, item.productId)
    case None => products
    case Some(k) => products[k := Sells(products[k], item.qty)]
  }

  /** `items.forEach`, in order. */
  function SellAll(products: seq<Product>, items: seq<CartItem>): seq<Product>
    decreases |items|
  {
    if |items| == 0 then products else SellAll(SellItem(products, items[0]), items[1..])
  }

  /** How much product `j` sells in an order: everything ordered under its
      id when it is the first product with that id, nothing otherwise. */
  function Demand(products: seq<Product>, items: seq<CartItem>, j: int): int
    requires 0 <= j < |products|
  {
    if FirstOfId(products, j) then Cart.QtyOf(items, products[j].id) else 0
  }

  lemma SellItemEffect(products: seq<Product>, item: CartItem)
    ensures |SellItem(products, item)| == |products|
    ensures forall j :: 0 <= j < |products| ==>
      SellItem(products, item)[j] ==
        Sells(products[j], if FirstOfId(products, j) && products[j].id == item.productId then item.qty else 0)
  {
    match FindProduct(products, item.productId)
    case None =>
      forall j | 0 <= j < |products|
        ensures products[j] == Sells(products[j], 0)
      {
      }
    case Some(k) =>
      forall j | 0 <= j < |products|
        ensures SellItem(products, item)[j] ==
          Sells(products[j], if FirstOfId(products, j) && products[j].id == item.productId then item.qty else 0)
      {
        if j != k && FirstOfId(products, j) && products[j].id == item.productId {
          assert j > k;
        }
      }
  }

  lemma SellsTwice(p: Product, a: int, b: int)
    ensures Sells(Sells(p, a), b) == Sells(p, a + b)
  {
  }

  /** Every product ends up having sold its demand, the rest untouched;
      the catalogue keeps its length and order. */
  lemma {:induction false} SellAllEffect(products: seq<Product>, items: seq<CartItem>)
    ensures |SellAll(products, items)| == |products|
    ensures forall j :: 0 <= j < |products| ==>
      SellAll(products, items)[j] == Sells(products[j], Demand(products, items, j))
    decreases |items|
  {
    if |items| == 0 {
      forall j | 0 <= j < |products|
        ensures products[j] == Sells(products[j], 0)
      {
      }
    } else {
      var next := SellItem(products, items[0]);
      SellItemEffect(products, items[0]);
      SellAllEffect(next, items[1..]);
      forall j | 0 <= j < |products|
        ensures SellAll(products, items)[j] == Sells(products[j], Demand(products, items, j))
      {
        assert next[j].id == products[j].id;
        assert FirstOfId(next, j) == FirstOfId(products, j);
        var first := if FirstOfId(products, j) && products[j].id == items[0].productId then items[0].qty else 0;
        SellsTwice(products[j], first, Demand(next, items[1..], j));
      }
    }
  }

  // -------------------------------------------------------------- create

  /** `Orders.create`. One paid order is appended with the caller's items,
      address and total exactly as given (the total is not recomputed) and
      a masked card number, and every ordered quantity moves from stock to
      sold: stock may go below zero, and unknown product ids are skipped. */
  function Create(s: Store, buyerId: string, items: seq<CartItem>, payment: Payment, total: real,
                  address: string, clock: nat, stamp: string): (r: Step<Order>)
    ensures r.reply.Ok?
    ensures var o := r.reply.value;
      && o.id == "ord_" + Decimal(clock)
      && o.buyerId == buyerId && o.items == items && o.total == total && o.address == address
      && o.payment == Mask(payment) && o.status == Paid && o.createdAt == stamp
      && r.store == s.(orders := s.orders + [o], products := r.store.products)
    ensures |r.store.products| == |s.products|
    ensures forall j :: 0 <= j < |s.products| ==>
      r.store.products[j] == Sells(s.products[j], Demand(s.products, items, j))
  {
    SellAllEffect(s.products, items);
    var order := Order("ord_" + Decimal(clock), buyerId, items, total, address, Mask(payment), Paid, stamp);
    Step(Ok(order), s.(orders := s.orders + [order], products := SellAll(s.products, items)))
  }

  /** Two lines for two different products take each quantity off its own
      stock, however far below zero that goes. */
  lemma TwoLineOrder(s: Store, a: CartItem, b: CartItem, payment: Payment, total: real, address: string, clock: nat, stamp: string)
    requires |s.products| == 2
    requires s.products[0].id == a.productId && s.products[1].id == b.productId
    requires a.productId != b.productId
    ensures var ps := Create(s, "buyer", [a, b], payment, total, address, clock, stamp).store.products;
      && ps[0].stock == s.products[0].stock - a.qty
      && ps[1].stock == s.products[1].stock - b.qty
      && ps[0].sold == s.products[0].sold + a.qty
      && ps[1].sold == s.products[1].sold + b.qty
  {
    var items := [a, b];
    assert items[1..] == [b] && items[1..][1..] == [];
    assert Cart.QtyOf([b], a.productId) == 0 + Cart.QtyOf([], a.productId);
    assert Cart.QtyOf(items, a.productId) == a.qty + Cart.QtyOf([b], a.productId);
    assert Cart.QtyOf([b], b.productId) == b.qty + Cart.QtyOf([], b.productId);
    assert Cart.QtyOf(items, b.productId) == 0 + Cart.QtyOf([b], b.productId);
    assert FirstOfId(s.products, 0) && FirstOfId(s.products, 1);
  }

  // -------------------------------------------------------- update status

  /** `Orders.updateStatus`: the first order with the id takes the new
      status, whatever it is; an unknown id changes nothing. */
  function UpdateStatus(s: Store, id: string, status: string): (r: Step<()>)
    ensures Unknown(s.orders, id) ==> r == Step(Fail(NotFound), s)
    ensures forall i :: FirstWithId(s.orders, id, i) ==>
      r == Step(Ok(()), s.(orders := s.orders[i := s.orders[i].(status := status)]))
  {
    match Find(s.orders, id)
    case None => Step(Fail(NotFound), s)
    case Some(i) => Step(Ok(()), s.(orders := s.orders[i := s.orders[i].(status := status)]))
  }

  /** Reading an order back after a status change shows the new status and
      nothing else changed. */
  lemma GetAfterUpdateStatus(s: Store, id: string, status: string)
    ensures GetById(UpdateStatus(s, id, status).store, id) ==
      match GetById(s, id) case None => None case Some(o) => Some(o.(status := status))
  {
    match Find(s.orders, id)
    case None =>
    case Some(k) =>
      assert FirstWithId(UpdateStatus(s, id, status).store.orders, id, k);
  }
}

=== FILE: products.dfy ===
/** `Products`: the catalogue. Creation with defaults, shallow-merge update,
    delete by id, moderated search, and reviews with a mean rating. */
module Products {
  import opened Wrappers
  import opened Text
  import opened Seqs
  import opened Records

  const Pending := "pending"
  const Approved := "approved"

  predicate FirstWithId(products: seq<Product>, id: string, i: int) {
    0 <= i < |products| && products[i].id == id && forall j :: 0 <= j < i ==> products[j].id != id
  }

  predicate Unknown(products: seq<Product>, id: string) {
    forall i :: 0 <= i < |products| ==> products[i].id != id
  }

  function Find(products: seq<Product>, id: string): (r: Option<nat>)
    ensures r.Some? ==> FirstWithId(products, id, r.value)
    ensures r.None? <==> Unknown(products, id)
  {
    FindIndex(products, (p: Product) => p.id == id)
  }

  // ------------------------------------------------------------- queries

  /** `Products.getById`: the first product with the id, if any. */
  function GetById(s: Store, id: string): (r: Option<Product>)
    ensures r.None? <==> Unknown(s.products, id)
    ensures forall i :: FirstWithId(s.products, id, i) ==> r == Some(s.products[i])
  {
    match Find(s.products, id)
    case None => None
    case Some(i) => Some(s.products[i])
  }

  function BySeller(sellerId: string): Product -> bool {
    (p: Product) => p.sellerId == sellerId
  }

  /** `Products.getBySeller`: the seller's products, in stored order. */
  function GetBySeller(s: Store, sellerId: string): (r: seq<Product>)
    ensures forall i :: 0 <= i < |r| ==> r[i] in s.products && r[i].sellerId == sellerId
    ensures forall i :: 0 <= i < |s.products| && s.products[i].sellerId == sellerId ==> s.products[i] in r
    ensures forall i :: 0 <= i < |s.products| ==>
      multiset(r)[s.products[i]] == if s.products[i].sellerId == sellerId then multiset(s.products)[s.products[i]] else 0
    ensures Picks(s.products, r, BySeller(sellerId))
  {
    FilterCounts(s.products, BySeller(sellerId));
    FilterPicks(s.products, BySeller(sellerId));
    Filter(s.products, BySeller(sellerId))
  }

  predicate IsApproved(p: Product) {
    p.status == Approved
  }

  /** `Products.getApproved`: the products moderation has let through. */
  function GetApproved(s: Store): (r: seq<Product>)
    ensures forall i :: 0 <= i < |r| ==> r[i] in s.products && r[i].status == Approved
    ensures forall i :: 0 <= i < |s.products| && s.products[i].status == Approved ==> s.products[i] in r
    ensures forall i :: 0 <= i < |s.products| ==>
      multiset(r)[s.products[i]] == if s.products[i].status == Approved then multiset(s.products)[s.products[i]] else 0
    ensures Picks(s.products, r, IsApproved)
  {
    FilterCounts(s.products, IsApproved);
    FilterPicks(s.products, IsApproved);
    Filter(s.products, IsApproved)
  }

  /** The query occurs, ignoring case, in the title or the description. */
  function MatchesText(q: string): Product -> bool {
    (p: Product) => Contains(Lower(p.title), Lower(q)) || Contains(Lower(p.desc), Lower(q))
  }

  function InCategory(cat: string): Product -> bool {
    (p: Product) => p.category == cat
  }

  /** What search asks of a product: approved, the query (when one is
      given) in its title or description, its category (when one is given). */
  predicate Matches(p: Product, q: string, cat: string) {
    && p.status == Approved
    && (q == "" || Contains(Lower(p.title), Lower(q)) || Contains(Lower(p.desc), Lower(q)))
    && (cat == "" || p.category == cat)
  }

  function Matching(q: string, cat: string): Product -> bool {
    (p: Product) => Matches(p, q, cat)
  }

  /** `Products.search`: the approved products, then narrowed by the query
      and by the category; an empty query or category does not narrow. */
  function Search(s: Store, q: string, cat: string): (r: seq<Product>)
    ensures forall i :: 0 <= i < |r| ==> r[i] in s.products && Matches(r[i], q, cat)
    ensures forall i :: 0 <= i < |s.products| && Matches(s.products[i], q, cat) ==> s.products[i] in r
  {
    var approved := GetApproved(s);
    var byText := if q != "" then Filter(approved, MatchesText(q)) else approved;
    if cat != "" then Filter(byText, InCategory(cat)) else byText
  }

  /** The staged filters of search are one filter by `Matches`: the result
      keeps the stored order. */
  lemma SearchIsOneFilter(s: Store, q: string, cat: string)
    ensures Search(s, q, cat) == Filter(s.products, Matching(q, cat))
  {
    var approved := Filter(s.products, IsApproved);
    var textual := (p: Product) => IsApproved(p) && (q == "" || MatchesText(q)(p));
    if q != "" {
      FilterFilter(s.products, IsApproved, MatchesText(q), textual);
    } else {
      FilterCongruent(s.products, IsApproved, textual);
    }
    var byText := Filter(s.products, textual);
    if cat != "" {
      FilterFilter(s.products, textual, InCategory(cat), Matching(q, cat));
    } else {
      FilterCongruent(s.products, textual, Matching(q, cat));
    }
  }

  // ----------------------------------------------------------------- add

  /** The form data `add` receives. `stock` is what `parseInt` made of the
      stock field (`None` for NaN); `images` is `None` when absent. */
  datatype Listing = Listing(
    sellerId: string,
    sellerName: string,
    title: string,
    desc: string,
    price: real,
    stock: Option<int>,
    category: string,
    images: Option<seq<string>>)

  /** `Products.add`: a new pending product, unrated, unreviewed and unsold,
      at the end of the catalogue. A zero or unparsable stock becomes 1. */
  function Add(s: Store, data: Listing, clock: nat, stamp: string): (r: Step<Product>)
    ensures r.reply.Ok?
    ensures r.store == s.(products := s.products + [r.reply.value])
    ensures var p := r.reply.value;
      && p.id == "p_" + Decimal(clock)
      && p.sellerId == data.sellerId && p.sellerName == data.sellerName
      && p.title == data.title && p.desc == data.desc
      && p.price == data.price && p.category == data.category
      && p.images == data.images.GetOr([])
      && p.status == Pending && p.rating == 0.0 && p.reviews == [] && p.sold == 0
      && p.createdAt == stamp
      && p.stock != 0
      && (data.stock.Some? && data.stock.value != 0 ==> p.stock == data.stock.value)
      && (data.stock.None? || data.stock.value == 0 ==> p.stock == 1)
  {
    var stock := if data.stock.Some? && data.stock.value != 0 then data.stock.value else 1;
    var p := Product(
      "p_" + Decimal(clock), data.sellerId, data.sellerName, data.title, data.desc, data.price, stock,
      data.category, data.images.GetOr([]), Pending, 0.0, [], 0, stamp);
    Step(Ok(p), s.(products := s.products + [p]))
  }

  /** A new product waits for moderation: no search shows it. */
  lemma AddIsHidden(s: Store, data: Listing, clock: nat, stamp: string, q: string, cat: string)
    ensures Search(Add(s, data, clock, stamp).store, q, cat) == Search(s, q, cat)
  {
    var t := Add(s, data, clock, stamp).store;
    SearchIsOneFilter(s, q, cat);
    SearchIsOneFilter(t, q, cat);
    FilterAppend(s.products, [Add(s, data, clock, stamp).reply.value], Matching(q, cat));
  }

  // -------------------------------------------------------------- update

  /** The fields an `Object.assign` onto a product may carry. */
  datatype ProductPatch = ProductPatch(
    id: Option<string>,
    sellerId: Option<string>,
    sellerName: Option<string>,
    title: Option<string>,
    desc: Option<string>,
    price: Option<real>,
    stock: Option<int>,
    category: Option<string>,
    images: Option<seq<string>>,
    status: Option<string>,
    rating: Option<real>,
    reviews: Option<seq<Review>>,
    sold: Option<int>,
    createdAt: Option<string>)

  /** `Object.assign(product, patch)`. */
  function Merge(p: Product, d: ProductPatch): Product {
    Product(
      d.id.GetOr(p.id), d.sellerId.GetOr(p.sellerId), d.sellerName.GetOr(p.sellerName),
      d.title.GetOr(p.title), d.desc.GetOr(p.desc), d.price.GetOr(p.price), d.stock.GetOr(p.stock),
      d.category.GetOr(p.category), d.images.GetOr(p.images), d.status.GetOr(p.status),
      d.rating.GetOr(p.rating), d.reviews.GetOr(p.reviews), d.sold.GetOr(p.sold), d.createdAt.GetOr(p.createdAt))
  }

  /** `Products.update`: the first product with the id takes the patch and
      is returned; an unknown id changes nothing. */
  function Update(s: Store, id: string, patch: ProductPatch): (r: Step<Product>)
    ensures Unknown(s.products, id) ==> r == Step(Fail(NotFound), s)
    ensures forall i :: FirstWithId(s.products, id, i) ==>
      var p := Merge(s.products[i], patch);
      r == Step(Ok(p), s.(products := s.products[i := p]))
  {
    match Find(s.products, id)
    case None => Step(Fail(NotFound), s)
    case Some(i) =>
      var p := Merge(s.products[i], patch);
      Step(Ok(p), s.(products := s.products[i := p]))
  }

  /** Reading a product back after an update that keeps its id yields the
      updated product. */
  lemma GetAfterUpdate(s: Store, id: string, patch: ProductPatch)
    requires patch.id.None?
    ensures GetById(Update(s, id, patch).store, id) ==
      if Unknown(s.products, id) then None else Some(Update(s, id, patch).reply.value)
  {
    match Find(s.products, id)
    case None =>
    case Some(k) =>
      assert FirstWithId(Update(s, id, patch).store.products, id, k);
  }

  // -------------------------------------------------------------- delete

  function Other(id: string): Product -> bool {
    (p: Product) => p.id != id
  }

  /** `Products.delete`: every product with the id goes, the rest stay in
      order; deleting an unknown id still succeeds. */
  function Delete(s: Store, id: string): (r: Store)
    ensures r == s.(products := r.products)
    ensures forall i :: 0 <= i < |r.products| ==> r.products[i] in s.products && r.products[i].id != id
    ensures forall i :: 0 <= i < |s.products| && s.products[i].id != id ==> s.products[i] in r.products
    ensures forall i :: 0 <= i < |s.products| ==>
      multiset(r.products)[s.products[i]] == if s.products[i].id != id then multiset(s.products)[s.products[i]] else 0
    ensures Picks(s.products, r.products, Other(id))
  {
    FilterCounts(s.products, Other(id));
    FilterPicks(s.products, Other(id));
    s.(products := Filter(s.products, Other(id)))
  }

  /** After a delete the id is gone, and a second delete changes nothing. */
  lemma DeleteIsFinal(s: Store, id: string)
    ensures GetById(Delete(s, id), id).None?
    ensures Delete(Delete(s, id), id) == Delete(s, id)
  {
    var t := Delete(s, id);
    FilterKeepsAll(t.products, Other(id));
  }

  // ------------------------------------------------------------- reviews

  /** The review form data; the id and the time are added on insertion. */
  datatype ReviewData = ReviewData(author: string, stars: int, comment: string)

  function StarSum(rs: seq<Review>): int {
    if |rs| == 0 then 0 else StarSum(rs[..|rs| - 1]) + rs[|rs| - 1].stars
  }

  /** The arithmetic mean of the stars. */
  function Mean(rs: seq<Review>): (m: real)
    requires |rs| > 0
    ensures m * |rs| as real == StarSum(rs) as real
  {
    StarSum(rs) as real / |rs| as real
  }

  /** `Products.addReview`: the review goes at the end of the first matching
      product's reviews and its rating becomes the mean of all its stars;
      nothing else changes. An unknown id changes nothing. */
  function AddReview(s: Store, id: string, data: ReviewData, clock: nat, stamp: string): (r: Step<()>)
    ensures Unknown(s.products, id) ==> r == Step(Fail(NotFound), s)
    ensures forall i :: FirstWithId(s.products, id, i) ==>
      && r.reply.Ok?
      && |r.store.products| == |s.products|
      && r.store == s.(products := s.products[i := r.store.products[i]])
      && var p, p' := s.products[i], r.store.products[i];
      && p' == p.(reviews := p'.reviews, rating := p'.rating)
      && p'.reviews == p.reviews + [Review("r_" + Decimal(clock), data.author, data.stars, data.comment, stamp)]
      && p'.rating * |p'.reviews| as real == StarSum(p'.reviews) as real
  {
    match Find(s.products, id)
    case None => Step(Fail(NotFound), s)
    case Some(i) =>
      var p := s.products[i];
      var reviews := p.reviews + [Review("r_" + Decimal(clock), data.author, data.stars, data.comment, stamp)];
      var p' := p.(reviews := reviews, rating := Mean(reviews));
      Step(Ok(()), s.(products := s.products[i := p']))
  }

  /** With every review between one and five stars, so is the mean. */
  lemma {:induction false} StarSumBounds(rs: seq<Review>)
    requires forall i :: 0 <= i < |rs| ==> 1 <= rs[i].stars <= 5
    ensures |rs| <= StarSum(rs) <= 5 * |rs|
    decreases |rs|
  {
    if |rs| > 0 {
      StarSumBounds(rs[..|rs| - 1]);
    }
  }

  lemma QuotientBounds(a: real, n: real)
    requires n > 0.0 && n <= a <= 5.0 * n
    ensures 1.0 <= a / n <= 5.0
  {
  }

  lemma MeanBounds(rs: seq<Review>)
    requires |rs| > 0
    requires forall i :: 0 <= i < |rs| ==> 1 <= rs[i].stars <= 5
    ensures 1.0 <= Mean(rs) <= 5.0
  {
    StarSumBounds(rs);
    QuotientBounds(StarSum(rs) as real, |rs| as real);
  }

  /** Five and four stars give 4.5; a further four gives 13/3 (4.3 once
      rounded). */
  lemma MeanExamples(a: Review, b: Review, c: Review)
    requires a.stars == 5 && b.stars == 4 && c.stars == 4
    ensures Mean([a, b]) == 4.5
    ensures Mean([a, b, c]) == 13.0 / 3.0
  {
    assert [a, b][..1] == [a] && [a][..0] == [];
    assert StarSum([a]) == 5;
    assert StarSum([a, b]) == 9;
    assert [a, b, c][..2] == [a, b];
    assert StarSum([a, b, c]) == 13;
  }
}

=== FILE: records.dfy ===
/** The records the storefront keeps, one datatype per entity, and the
    whole in-page store that every operation reads and rewrites. */
module Records {
  import opened Wrappers

  datatype Role = Buyer | Seller | Admin

  /** An account. `password` holds the `btoa` text of the password; the
      copy kept as the session has it removed (`None`). `confirmToken` is
      `None` once confirmed, and for accounts created without one. */
  datatype User = User(
    id: string,
    name: string,
    email: string,
    phone: string,
    password: Option<string>,
    role: Role,
    avatar: string,
    career: string,
    confirmed: bool,
    confirmToken: Option<string>,
    banned: bool,
    createdAt: string,
    sellerRequested: bool)

  datatype Review = Review(id: string, author: string, stars: int, comment: string, createdAt: string)

  /** A catalogue entry. `status` is a free-form moderation string
      ("pending", "approved", or whatever an update writes). */
  datatype Product = Product(
    id: string,
    sellerId: string,
    sellerName: string,
    title: string,
    desc: string,
    price: real,
    stock: int,
    category: string,
    images: seq<string>,
    status: string,
    rating: real,
    reviews: seq<Review>,
    sold: int,
    createdAt: string)

  /** A cart line: a product id with a snapshot of its title, price and first image. */
  datatype CartItem = CartItem(productId: string, title: string, price: real, image: string, qty: int)

  /** The payment object of an order: the card number and every other field the checkout sent. */
  datatype Payment = Payment(cardNumber: string, details: map<string, string>)

  datatype Order = Order(
    id: string,
    buyerId: string,
    items: seq<CartItem>,
    total: real,
    address: string,
    payment: Payment,
    status: string,
    createdAt: string)

  /** A queued mock e-mail. */
  datatype Message = Message(
    kind: string,
    to: string,
    subject: string,
    body: string,
    token: string,
    userId: string,
    read: bool,
    createdAt: string)

  /** Every collection the storefront persists, plus the single session slot
      and the demo-data flag. */
  datatype Store = Store(
    users: seq<User>,
    products: seq<Product>,
    orders: seq<Order>,
    cart: seq<CartItem>,
    session: Option<User>,
    messages: seq<Message>,
    seeded: bool)

  /** The store of a browser profile that has never been written to. */
  const Blank := Store([], [], [], [], None, [], false)

  /** The failures an operation reports. `EncodingFailure` is the exception
      `btoa` raises on a character outside Latin-1, which escapes the call
      instead of being returned. */
  datatype Error =
    | InvalidCredentials
    | NotConfirmed
    | Banned
    | DuplicateEmail
    | InvalidToken
    | NotFound
    | EncodingFailure

  /** The `{ ok, ... }` descriptor an operation returns. */
  datatype Reply<+T> = Ok(value: T) | Fail(error: Error)

  /** What an operation answers together with the store it leaves behind. */
  datatype Step<+T> = Step(reply: Reply<T>, store: Store)

  /** The `msg` of the failure descriptor; `NotFound` descriptors carry
      none, and an escaping exception has no descriptor at all. */
  function ErrorText(e: Error): (r: Option<string>)
    ensures r.None? <==> e == NotFound || e == EncodingFailure
  {
    match e
    case InvalidCredentials => Some("Credenciales inválidas")
    case NotConfirmed => Some("Confirma tu cuenta primero. Revisa tu correo.")
    case Banned => Some("Esta cuenta ha sido suspendida.")
    case DuplicateEmail => Some("Este correo ya está registrado.")
    case InvalidToken => Some("Código inválido o expirado.")
    case NotFound => None
    case EncodingFailure => None
  }
}

=== FILE: seed.dfy ===
/** `Seed`: the demo catalogue a fresh browser profile starts with, written
    once and guarded by the `seeded` flag. */
module Seed {
  import opened Wrappers
  import opened Records
  import Base64
  import Auth
  import Products

  const AdminEmail := "admin@cuervostore.mx"

  /** The three demo accounts, all confirmed and none banned. A field the
      literal leaves out reads as empty or false here. */
  function DemoUsers(stamp: string): seq<User> {
    [ User("u_admin", "Mr.Candy", AdminEmail, "", Base64.Btoa("admin123"), Admin,
           "assets/avatars/tics.svg", "TICS", true, None, false, stamp, false),
      User("u_demo1", "Ana Ramírez", "ana@demo.com", "", Base64.Btoa("demo123"), Seller,
           "assets/avatars/enfermeria.svg", "Enfermería", true, None, false, stamp, true),
      User("u_demo2", "Carlos Mejía", "carlos@demo.com", "", Base64.Btoa("demo123"), Buyer,
           "assets/avatars/mecanica.svg", "Mecatrónica", true, None, false, stamp, false) ]
  }

  /** The description of demo listing `k`, for `k` from 1 to 6. */
  function DemoDescription(k: nat): string {
    if k == 1 then "Kit completo con estetoscopio, tensiómetro y termómetro digital. Ideal para estudiantes y profesionales."
    else if k == 2 then "Paquete completo para proyectos de mecatrónica e ingeniería. Incluye 40 sensores y módulos."
    else if k == 3 then "Manual actualizado 2024 con técnicas RCP, manejo de trauma y emergencias médicas."
    else if k == 4 then "15.6\" FHD 144Hz, RTX 4060, Intel i7-13th, 16GB RAM, 512GB NVMe. Para ingenieros y gamers."
    else if k == 5 then "Set de 2 piezas en tela antimicrobiana. Disponible en azul, verde y blanco. Tallas S-XL."
    else "Casco de seguridad certificado EN397 para ingeniería ferroviaria. Con porta-linterna integrado."
  }

  /** A listing as the demo catalogue writes it: approved, with no images
      and no reviews yet. */
  function Demo(id: string, sellerId: string, sellerName: string, title: string, desc: string,
                price: real, stock: int, category: string, rating: real, sold: int, stamp: string): Product
  {
    Product(id, sellerId, sellerName, title, desc, price, stock, category, [], Products.Approved, rating, [], sold, stamp)
  }

  /** The six demo listings. */
  function DemoProducts(stamp: string): seq<Product> {
    [ Demo("p1", "u_demo1", "Ana Ramírez", "Kit de Enfermería Premium",
           DemoDescription(1),
           850.0, 15, "salud", 4.8, 23, stamp),
      Demo("p2", "u_admin", "Mr.Candy", "Arduino Mega 2560 + Sensores",
           DemoDescription(2),
           1200.0, 8, "electronica", 4.9, 41, stamp),
      Demo("p3", "u_demo1", "Ana Ramírez", "Manual de Primeros Auxilios",
           DemoDescription(3),
           320.0, 30, "libros", 4.6, 67, stamp),
      Demo("p4", "u_admin", "Mr.Candy", "Laptop Gaming Gamer Pro X",
           DemoDescription(4),
           22999.0, 5, "electronica", 4.7, 12, stamp),
      Demo("p5", "u_demo1", "Ana Ramírez", "Uniforme Médico Scrubs",
           DemoDescription(5),
           480.0, 20, "ropa", 4.5, 38, stamp),
      Demo("p6", "u_admin", "Mr.Candy", "Casco Ferroviario Certificado",
           DemoDescription(6),
           650.0, 12, "seguridad", 4.3, 9, stamp) ]
  }

  /** `seedDemoData`: on an unseeded store the accounts and the catalogue are
      replaced by the demo ones and the flag is raised; orders, cart,
      session and messages are left as they are. A seeded store is left
      alone. */
  function SeedDemoData(s: Store, stamp: string): (r: Store)
    ensures r.seeded
    ensures s.seeded ==> r == s
    ensures !s.seeded ==> r.users == DemoUsers(stamp) && r.products == DemoProducts(stamp)
    ensures r.orders == s.orders && r.cart == s.cart && r.session == s.session && r.messages == s.messages
  {
    if s.seeded then s
    else s.(users := DemoUsers(stamp), products := DemoProducts(stamp), seeded := true)
  }

  /** Seeding twice is seeding once, whatever clock the second run reads. */
  lemma SeedOnce(s: Store, stamp: string, stamp': string)
    ensures SeedDemoData(SeedDemoData(s, stamp), stamp') == SeedDemoData(s, stamp)
  {
  }

  /** Any store holding the demo accounts lets the administrator in with
      the demo password; the session then holds that account without its
      password. */
  lemma DemoAdminLogsIn(t: Store, stamp: string)
    requires t.users == DemoUsers(stamp)
    ensures var r := Auth.Login(t, AdminEmail, "admin123");
      && r.reply.Ok?
      && r.reply.value.id == "u_admin" && r.reply.value.role == Admin
      && r.reply.value.password.None?
      && r.store.session == Some(r.reply.value)
  {
    assert Base64.Latin1("admin123");
    assert Auth.FirstCredentials(t.users, AdminEmail, "admin123", 0);
  }

  /** Right after seeding, the administrator can log in. */
  lemma AdminLogsInAfterSeeding(s: Store, stamp: string)
    requires !s.seeded
    ensures Auth.Login(SeedDemoData(s, stamp), AdminEmail, "admin123").reply.Ok?
  {
    DemoAdminLogsIn(SeedDemoData(s, stamp), stamp);
  }
}

=== FILE: seqs.dfy ===
/** The two array scans the storefront uses everywhere: `findIndex` and `filter`. */
module Seqs {
  import opened Wrappers

  /** `Array.prototype.findIndex`: the index of the first element satisfying
      `p`, or `None` where JavaScript answers -1. */
  function FindIndex<T>(s: seq<T>, p: T -> bool): (r: Option<nat>)
    ensures r.Some? ==> r.value < |s| && p(s[r.value])
    ensures r.Some? ==> forall j :: 0 <= j < r.value ==> !p(s[j])
    ensures r.None? <==> forall j :: 0 <= j < |s| ==> !p(s[j])
    decreases |s|
  {
    if |s| == 0 then None
    else if p(s[0]) then Some(0)
    else
      match FindIndex(s[1..], p)
      case None => None
      case Some(k) => Some(k + 1)
  }

  /** `Array.prototype.filter`: the elements satisfying `p`, in order. */
  function Filter<T>(s: seq<T>, p: T -> bool): (r: seq<T>)
    ensures |r| <= |s|
    ensures forall i :: 0 <= i < |r| ==> r[i] in s && p(r[i])
    ensures forall i :: 0 <= i < |s| && p(s[i]) ==> s[i] in r
    decreases |s|
  {
    if |s| == 0 then []
    else if p(s[0]) then [s[0]] + Filter(s[1..], p)
    else Filter(s[1..], p)
  }

  /** `Filter` keeps each passing element as often as `s` has it, and no
      failing one. */
  lemma {:induction false} FilterCounts<T>(s: seq<T>, p: T -> bool)
    ensures forall i :: 0 <= i < |s| ==>
      multiset(Filter(s, p))[s[i]] == if p(s[i]) then multiset(s)[s[i]] else 0
    decreases |s|
  {
    if |s| > 0 {
      FilterCounts(s[1..], p);
      assert s == [s[0]] + s[1..];
      forall i | 0 <= i < |s|
        ensures multiset(Filter(s, p))[s[i]] == if p(s[i]) then multiset(s)[s[i]] else 0
      {
        if i > 0 {
          assert s[i] == s[1..][i - 1];
        }
        if s[i] !in s[1..] {
          assert multiset(s[1..])[s[i]] == 0;
          assert multiset(Filter(s[1..], p))[s[i]] == 0;
        }
      }
    }
  }

  /** Each element of `r` is the element of `s` at the matching entry of
      `idx`, and it passes `p`. */
  ghost predicate Aligned<T>(s: seq<T>, r: seq<T>, p: T -> bool, idx: seq<int>) {
    |idx| == |r| &&
    forall k :: 0 <= k < |idx| ==> 0 <= idx[k] < |s| && r[k] == s[idx[k]] && p(s[idx[k]])
  }

  ghost predicate Rising(idx: seq<int>) {
    forall k, l :: 0 <= k < l < |idx| ==> idx[k] < idx[l]
  }

  /** Every position of `s` whose element passes `p` is listed in `idx`. */
  ghost predicate Covers<T>(s: seq<T>, p: T -> bool, idx: seq<int>) {
    forall i :: 0 <= i < |s| && p(s[i]) ==> i in idx
  }

  /** `r` lists the elements of `s` at the positions `idx`, which rise
      strictly and are exactly the positions whose element passes `p`. */
  ghost predicate PicksAt<T>(s: seq<T>, r: seq<T>, p: T -> bool, idx: seq<int>) {
    Aligned(s, r, p, idx) && Rising(idx) && Covers(s, p, idx)
  }

  /** `r` is what remains of `s` once the elements failing `p` are struck
      out: the survivors in their original order, each as often as in `s`. */
  ghost predicate Picks<T>(s: seq<T>, r: seq<T>, p: T -> bool) {
    exists idx :: PicksAt(s, r, p, idx)
  }

  /** Every position one further on. */
  function Shift(xs: seq<int>): (ys: seq<int>)
    ensures |ys| == |xs|
    ensures forall k :: 0 <= k < |xs| ==> ys[k] == xs[k] + 1
  {
    seq(|xs|, k requires 0 <= k < |xs| => xs[k] + 1)
  }

  /** Every position one further back. */
  function Unshift(xs: seq<int>): (ys: seq<int>)
    ensures |ys| == |xs|
    ensures forall k :: 0 <= k < |xs| ==> ys[k] == xs[k] - 1
  {
    seq(|xs|, k requires 0 <= k < |xs| => xs[k] - 1)
  }

  /** The positions of `s` whose element passes `p`, in increasing order. */
  ghost function Positions<T>(s: seq<T>, p: T -> bool): seq<int>
    decreases |s|
  {
    if |s| == 0 then []
    else if p(s[0]) then [0] + Shift(Positions(s[1..], p))
    else Shift(Positions(s[1..], p))
  }

  lemma ShiftAligned<T>(s: seq<T>, r: seq<T>, p: T -> bool, idx: seq<int>)
    requires |s| > 0 && Aligned(s[1..], r, p, idx)
    ensures Aligned(s, r, p, Shift(idx))
    ensures forall k :: 0 <= k < |idx| ==> Shift(idx)[k] >= 1
  {
    forall k | 0 <= k < |idx|
      ensures 1 <= Shift(idx)[k] < |s| && r[k] == s[Shift(idx)[k]] && p(s[Shift(idx)[k]])
    {
      assert s[1..][idx[k]] == s[idx[k] + 1];
    }
  }

  lemma ShiftCovers<T>(s: seq<T>, p: T -> bool, idx: seq<int>)
    requires |s| > 0 && Covers(s[1..], p, idx)
    ensures forall i :: 1 <= i < |s| && p(s[i]) ==> i in Shift(idx)
  {
    forall i | 1 <= i < |s| && p(s[i])
      ensures i in Shift(idx)
    {
      assert s[1..][i - 1] == s[i];
      assert i - 1 in idx;
      var m :| 0 <= m < |idx| && idx[m] == i - 1;
      assert Shift(idx)[m] == i;
    }
  }

  lemma ConsAligned<T>(s: seq<T>, r: seq<T>, p: T -> bool, idx: seq<int>)
    requires |s| > 0 && p(s[0]) && Aligned(s, r, p, idx)
    ensures Aligned(s, [s[0]] + r, p, [0] + idx)
  {
    var r', idx' := [s[0]] + r, [0] + idx;
    assert forall k :: 1 <= k < |idx'| ==> idx'[k] == idx[k - 1] && r'[k] == r[k - 1];
  }

  lemma ConsRising(idx: seq<int>)
    requires Rising(idx) && forall k :: 0 <= k < |idx| ==> idx[k] >= 1
    ensures Rising([0] + idx)
  {
    var idx' := [0] + idx;
    assert forall k :: 1 <= k < |idx'| ==> idx'[k] == idx[k - 1];
  }

  lemma ConsCovers<T>(s: seq<T>, p: T -> bool, idx: seq<int>)
    requires |s| > 0
    requires forall i :: 1 <= i < |s| && p(s[i]) ==> i in idx
    ensures Covers(s, p, [0] + idx)
  {
    var idx' := [0] + idx;
    forall i | 0 <= i < |s| && p(s[i])
      ensures i in idx'
    {
      if i == 0 {
        assert idx'[0] == 0;
      } else {
        var m :| 0 <= m < |idx| && idx[m] == i;
        assert idx'[m + 1] == i;
      }
    }
  }

  lemma PickedHead<T>(s: seq<T>, rest: seq<T>, p: T -> bool, idx: seq<int>)
    requires |s| > 0 && p(s[0]) && PicksAt(s[1..], rest, p, idx)
    ensures PicksAt(s, [s[0]] + rest, p, [0] + Shift(idx))
  {
    ShiftAligned(s, rest, p, idx);
    ShiftCovers(s, p, idx);
    var sh := Shift(idx);
    assert Rising(sh);
    ConsAligned(s, rest, p, sh);
    ConsRising(sh);
    ConsCovers(s, p, sh);
  }

  lemma SkippedHead<T>(s: seq<T>, rest: seq<T>, p: T -> bool, idx: seq<int>)
    requires |s| > 0 && !p(s[0]) && PicksAt(s[1..], rest, p, idx)
    ensures PicksAt(s, rest, p, Shift(idx))
  {
    ShiftAligned(s, rest, p, idx);
    ShiftCovers(s, p, idx);
    assert Rising(Shift(idx));
  }

  /** `Filter` keeps the passing elements at their passing positions, in order. */
  lemma {:induction false} FilterPicks<T>(s: seq<T>, p: T -> bool)
    ensures PicksAt(s, Filter(s, p), p, Positions(s, p))
    ensures Picks(s, Filter(s, p), p)
    decreases |s|
  {
    if |s| > 0 {
      FilterPicks(s[1..], p);
      if p(s[0]) {
        PickedHead(s, Filter(s[1..], p), p, Positions(s[1..], p));
      } else {
        SkippedHead(s, Filter(s[1..], p), p, Positions(s[1..], p));
      }
    }
    assert PicksAt(s, Filter(s, p), p, Positions(s, p));
  }

  lemma AlignedFirst<T>(s: seq<T>, r: seq<T>, p: T -> bool, idx: seq<int>)
    requires Aligned(s, r, p, idx) && |idx| > 0
    ensures 0 <= idx[0] < |s|
  {
  }

  lemma UnshiftAligned<T>(s: seq<T>, r: seq<T>, p: T -> bool, idx: seq<int>)
    requires |s| > 0 && Aligned(s, r, p, idx)
    requires forall k :: 0 <= k < |idx| ==> idx[k] >= 1
    ensures Aligned(s[1..], r, p, Unshift(idx))
  {
    forall k | 0 <= k < |idx|
      ensures 0 <= Unshift(idx)[k] < |s| - 1 && r[k] == s[1..][Unshift(idx)[k]] && p(s[1..][Unshift(idx)[k]])
    {
      assert s[1..][idx[k] - 1] == s[idx[k]];
    }
  }

  lemma UnshiftCovers<T>(s: seq<T>, p: T -> bool, idx: seq<int>)
    requires |s| > 0
    requires forall i :: 1 <= i < |s| && p(s[i]) ==> i in idx
    ensures Covers(s[1..], p, Unshift(idx))
  {
    forall i | 0 <= i < |s| - 1 && p(s[1..][i])
      ensures i in Unshift(idx)
    {
      assert s[1..][i] == s[i + 1];
      var m :| 0 <= m < |idx| && idx[m] == i + 1;
      assert Unshift(idx)[m] == i;
    }
  }

  lemma RisingFirst(idx: seq<int>, m: nat)
    requires Rising(idx) && m < |idx|
    ensures idx[0] <= idx[m]
  {
    if m > 0 {
      assert idx[0] < idx[m];
    }
  }

  /** A passing first element sits at the first listed position. */
  lemma HeadPicked<T>(s: seq<T>, r: seq<T>, p: T -> bool, idx: seq<int>)
    requires |s| > 0 && p(s[0]) && PicksAt(s, r, p, idx)
    ensures |idx| > 0 && idx[0] == 0 && r[0] == s[0]
    ensures forall k :: 1 <= k < |idx| ==> idx[k] >= 1
    ensures forall i :: 1 <= i < |s| && p(s[i]) ==> i in idx[1..]
  {
    assert 0 in idx;
    var m :| 0 <= m < |idx| && idx[m] == 0;
    RisingFirst(idx, m);
    forall i | 1 <= i < |s| && p(s[i])
      ensures i in idx[1..]
    {
      var n :| 0 <= n < |idx| && idx[n] == i;
      assert idx[1..][n - 1] == i;
    }
  }

  lemma PickedTail<T>(s: seq<T>, r: seq<T>, p: T -> bool, idx: seq<int>)
    requires |s| > 0 && p(s[0]) && PicksAt(s, r, p, idx)
    ensures |r| > 0 && r[0] == s[0]
    ensures PicksAt(s[1..], r[1..], p, Unshift(idx[1..]))
  {
    HeadPicked(s, r, p, idx);
    var tail := idx[1..];
    assert Aligned(s, r[1..], p, tail);
    UnshiftAligned(s, r[1..], p, tail);
    UnshiftCovers(s, p, tail);
    assert Rising(Unshift(tail));
  }

  lemma SkippedTail<T>(s: seq<T>, r: seq<T>, p: T -> bool, idx: seq<int>)
    requires |s| > 0 && !p(s[0]) && PicksAt(s, r, p, idx)
    ensures PicksAt(s[1..], r, p, Unshift(idx))
  {
    assert forall k :: 0 <= k < |idx| ==> idx[k] != 0;
    UnshiftAligned(s, r, p, idx);
    UnshiftCovers(s, p, idx);
    assert Rising(Unshift(idx));
  }

  /** Only `Filter`'s result strikes out the failing elements of `s` and
      keeps the rest in order: the characterisation is complete. */
  lemma {:induction false} PicksUnique<T>(s: seq<T>, r: seq<T>, p: T -> bool, idx: seq<int>)
    requires PicksAt(s, r, p, idx)
    ensures r == Filter(s, p)
    decreases |s|
  {
    if |s| == 0 {
      NothingToPick(s, r, p, idx);
    } else if p(s[0]) {
      PickedTail(s, r, p, idx);
      PicksUnique(s[1..], r[1..], p, Unshift(idx[1..]));
      PickedJoin(s, r, p);
    } else {
      SkippedTail(s, r, p, idx);
      PicksUnique(s[1..], r, p, Unshift(idx));
      SkippedJoin(s, r, p);
    }
  }

  lemma NothingToPick<T>(s: seq<T>, r: seq<T>, p: T -> bool, idx: seq<int>)
    requires |s| == 0 && Aligned(s, r, p, idx)
    ensures r == Filter(s, p)
  {
    if |idx| > 0 {
      AlignedFirst(s, r, p, idx);
    }
  }

  lemma PickedJoin<T>(s: seq<T>, r: seq<T>, p: T -> bool)
    requires |s| > 0 && p(s[0]) && |r| > 0 && r[0] == s[0] && r[1..] == Filter(s[1..], p)
    ensures r == Filter(s, p)
  {
    assert r == [r[0]] + r[1..];
  }

  lemma SkippedJoin<T>(s: seq<T>, r: seq<T>, p: T -> bool)
    requires |s| > 0 && !p(s[0]) && r == Filter(s[1..], p)
    ensures r == Filter(s, p)
  {
  }

  /** Filtering twice is filtering once by the conjunction. */
  lemma {:induction false} FilterFilter<T>(s: seq<T>, f: T -> bool, g: T -> bool, h: T -> bool)
    requires forall x :: h(x) == (f(x) && g(x))
    ensures Filter(Filter(s, f), g) == Filter(s, h)
    decreases |s|
  {
    if |s| > 0 {
      FilterFilter(s[1..], f, g, h);
      if f(s[0]) {
        assert Filter(s, f) == [s[0]] + Filter(s[1..], f);
        assert Filter(s, f)[1..] == Filter(s[1..], f);
      }
    }
  }

  /** A filter that every element passes changes nothing. */
  lemma {:induction false} FilterKeepsAll<T>(s: seq<T>, p: T -> bool)
    requires forall i :: 0 <= i < |s| ==> p(s[i])
    ensures Filter(s, p) == s
    decreases |s|
  {
    if |s| > 0 {
      FilterKeepsAll(s[1..], p);
      assert s == [s[0]] + s[1..];
    }
  }

  /** Two predicates that agree on every element filter alike. */
  lemma {:induction false} FilterCongruent<T>(s: seq<T>, p: T -> bool, q: T -> bool)
    requires forall i :: 0 <= i < |s| ==> p(s[i]) == q(s[i])
    ensures Filter(s, p) == Filter(s, q)
    decreases |s|
  {
    if |s| > 0 {
      FilterCongruent(s[1..], p, q);
    }
  }

  /** Filtering a longer sequence filters its parts. */
  lemma {:induction false} FilterAppend<T>(a: seq<T>, b: seq<T>, p: T -> bool)
    ensures Filter(a + b, p) == Filter(a, p) + Filter(b, p)
    decreases |a|
  {
    if |a| > 0 {
      FilterAppend(a[1..], b, p);
      assert (a + b)[1..] == a[1..] + b;
    } else {
      assert a + b == b;
    }
  }
}

=== FILE: text.dfy ===
/** The string helpers the storefront relies on: ASCII lower-casing,
    substring search, suffix slicing, decimal rendering and the `||` default. */
module Text {
  import opened Wrappers

  /** ASCII upper-case letters map to lower case; every other character is kept. */
  function LowerChar(c: char): char {
    if 'A' <= c <= 'Z' then (c as int + 32) as char else c
  }

  /** `String.prototype.toLowerCase`, restricted to the ASCII letters. */
  function Lower(s: string): (r: string)
    ensures |r| == |s|
    ensures forall i :: 0 <= i < |s| ==> r[i] == LowerChar(s[i])
  {
    seq(|s|, i requires 0 <= i < |s| => LowerChar(s[i]))
  }

  /** `needle` occurs in `hay` starting at offset `i`. */
  predicate OccursAt(hay: string, needle: string, i: int) {
    0 <= i && i + |needle| <= |hay| && hay[i..i + |needle|] == needle
  }

  lemma OccursShift(hay: string, needle: string)
    requires |hay| > 0
    ensures forall i {:trigger OccursAt(hay[1..], needle, i)} :: 0 <= i ==>
      (OccursAt(hay[1..], needle, i) <==> OccursAt(hay, needle, i + 1))
  {
    forall i | 0 <= i
      ensures OccursAt(hay[1..], needle, i) <==> OccursAt(hay, needle, i + 1)
    {
      if 0 <= i && i + |needle| <= |hay| - 1 {
        assert hay[1..][i..i + |needle|] == hay[i + 1..i + 1 + |needle|];
      }
    }
  }

  /** `String.prototype.includes`: a left-to-right scan for `needle`. */
  function Contains(hay: string, needle: string): (r: bool)
    ensures r <==> exists i :: OccursAt(hay, needle, i)
    decreases |hay|
  {
    if |needle| <= |hay| && hay[..|needle|] == needle then
      assert OccursAt(hay, needle, 0);
      true
    else if |hay| == 0 then
      false
    else
      OccursShift(hay, needle);
      assert forall i :: OccursAt(hay, needle, i) ==> i == 0 || OccursAt(hay[1..], needle, i - 1);
      Contains(hay[1..], needle)
  }

  /** `s.slice(-n)` for a positive `n`: the last `min(n, |s|)` characters. */
  function LastN(s: string, n: nat): (r: string)
    requires n > 0
    ensures |r| == if |s| < n then |s| else n
    ensures s == s[..|s| - |r|] + r
  {
    if |s| < n then s else s[|s| - n..]
  }

  function DigitChar(d: nat): (c: char)
    requires d < 10
    ensures '0' <= c <= '9'
  {
    (48 + d) as char
  }

  /** The decimal rendering of a natural number, as `String(n)` gives it. */
  function Decimal(n: nat): (r: string)
    ensures |r| >= 1
    ensures forall i :: 0 <= i < |r| ==> '0' <= r[i] <= '9'
    decreases n
  {
    if n < 10 then [DigitChar(n)] else Decimal(n / 10) + [DigitChar(n % 10)]
  }

  /** The number a string of decimal digits denotes. */
  function DecimalValue(s: string): nat
    decreases |s|
  {
    if |s| == 0 then 0
    else
      var c := s[|s| - 1];
      DecimalValue(s[..|s| - 1]) * 10 + (if '0' <= c <= '9' then c as int - 48 else 0)
  }

  /** Reading the digits back gives the number. */
  lemma {:induction false} DecimalRoundTrip(n: nat)
    ensures DecimalValue(Decimal(n)) == n
    decreases n
  {
    if n >= 10 {
      var d := Decimal(n / 10);
      assert (d + [DigitChar(n % 10)])[..|d|] == d;
      DecimalRoundTrip(n / 10);
    }
  }

  /** Different clocks give different ids. */
  lemma DecimalInjective(a: nat, b: nat)
    requires Decimal(a) == Decimal(b)
    ensures a == b
  {
    DecimalRoundTrip(a);
    DecimalRoundTrip(b);
  }

  /** JavaScript `value || fallback` on an optional string: a missing or
      empty value yields the fallback. */
  function OrElse(o: Option<string>, fallback: string): string {
    if o.Some? && o.value != "" then o.value else fallback
  }
}

=== FILE: wrappers.dfy ===
/** Optional values: JavaScript's `null` and `undefined` become `None`. */
module Wrappers {

  datatype Option<+T> = None | Some(value: T) {

    /** The wrapped value, or `default` when there is none. */
    function GetOr(default: T): T {
      match this
      case Some(v) => v
      case None => default
    }
  }
}
